=== FILE: README.md ===
# Toy-compiler front end: lexer, token file and parser, in Dafny

This project models the two Java classes of a small compiler front end and
proves properties of the model.

**`Lexer`** turns source text into tokens. It reads one character at a time
over the text with a `'\u0000'` sentinel appended. It tracks the line and
column, and it classifies:
- identifiers and keywords;
- digit runs;
- quoted character and string literals;
- one- and two-character operators, including minus versus negate;
- comments and punctuation.

`printTokens` writes one fixed-width line per token.

**`Parser`** works from the lines `printTokens` writes:
- it decodes each line back into a token (the loop in `main`);
- it walks the token list with a cursor (`nextToken`, `expect`, `opCheck`);
- it builds a binary tree of `Node`s with a recursive descent;
- `printAST` dumps that tree in pre-order.

The parser also carries a static operator table (precedence, associativity,
arity, node type), a `typeMap` from token kinds to node kinds, and the
display names of the node kinds.

Everything is modelled as the code is written. Each `error(...)` call (which
prints and exits) becomes an `Err(Fatal(line, pos, message))` result. A read
past the end of a string or list becomes an `Err(IndexOutOfBounds(i))`. A
dereference of `null` becomes `Err(NullReference)`. The decoder's library
exceptions become `NoSuchElement`, `NumberFormat` and `TokenNotFound`.

## Modules

| file | module | contents |
|---|---|---|
| base.dfy | `Base` | `Option`, `Result`, the error kinds |
| text.dfy | `Text` | the Java library behaviour the code leans on: `%d`, `%5d`, `%-15s`, `Integer.parseInt`, StringTokenizer word splitting, Scanner.nextLine line splitting |
| lexer.dfy | `Lexer` | the lexer state, every reader of Lexer.java, the token stream, `printTokens` |
| lexer_props.dfy | `LexerProps` | what `getToken` returns on each kind of input |
| parser_types.dfy | `ParserTypes` | the parser's `TokenType` with its metadata, `NodeType` with its names, the `typeMap`, the parser's `Token` |
| parser_tables.dfy | `ParserTables` | facts about those tables: names are distinct, precedence and arity, the `typeMap` is injective and agrees with the metadata |
| ast.dfy | `Ast` | `Node` as the `Tree` datatype, `printAST` and its line-by-line reading |
| parser.dfy | `Parser` | the cursor and the recursive descent, as written |
| parser_props.dfy | `ParserProps` | what the descent does on particular token sequences, and the shape of the tree `parse` returns |
| token_line.dfy | `TokenLine` | the token-file decoder of `Parser.main`, and the round trip from the lexer's lines |

## Behaviour of the code worth knowing

Some of what the code does is easy to miss on a first reading, and some of
it departs from what its own comments say. The model follows the code:
- **Character literals.** A quoted character becomes an `Integer` token whose text is the character itself, not its code.
- **Unclosed character literals.** A digit run after `'` is read without looking for a closing quote.
- **`#`.** A `#` is not a line comment. It discards itself, and the text after it is a comment only when it starts with `/` or `*`.
- **Block comments.** A block comment ends at the first `*` or `/` inside it, not at `*/`. That stop character and the one after it are consumed, and lexing resumes right after them: `#* c */x` resumes at `x`. The comment at Lexer.java:155 promises to ignore everything until the comment has ended.
- **`//` comments.** They add one to the line count before the newline that ends them is counted again.
- **No precedence in expressions.**
  - `expressionParse` has no precedence climbing, as its comment at Parser.java:340 admits.
  - After an operand and an operation, the right operand is parsed with the operation token still current. That token has no case in the switch, so the right child is always empty.
- **Assignments.** Every assignment is an error: `assignmentParse` checks the token it has just read past, which is the `=`, for being an identifier.
- **Braces.** `braceStatement` expects a left brace where the closing brace belongs.
- **Node values.** Nodes never carry a value, so every leaf prints as `<Type> null`.
- **`else`.** `else` has no `typeMap` entry, so an `else` statement node has a null type and prints as `null`.
- **U+0085 in the token file.** `Scanner.nextLine` ends a line at U+0085, but `hasNext` does not count it as whitespace. A blank line followed by U+0085 is therefore read, and the decoder fails on it with NoSuchElementException.

## Model

| member | source | states |
|---|---|---|
| Lexer.NextChar | src/main/java/Lexer.java:278-282 | getNextChar succeeds exactly while the next index lies inside the sentinel-terminated text; it moves the index and the column on by one and leaves the line alone |
| Lexer.Init | src/main/java/Lexer.java:81-93 | the constructor appends the sentinel, starts at line 1, and has read the first character (the sentinel for empty input), which sits at column 1 |
| Lexer.After | src/main/java/Lexer.java:245-248 | one step of a newline-tracking loop: a newline moves to the next line, and the following character is at column 1; any other character moves the column on by one |
| Lexer.Scan | src/main/java/Lexer.java:188-191 | a character-class loop stops on the first character outside the class, never moves back, and reads at least one character when it starts inside the class |
| Lexer.ScanRun | src/main/java/Lexer.java:188-191 | every character a loop steps over belongs to its class, so with Scan it reads the maximal run |
| Lexer.ScanFlat | src/main/java/Lexer.java:128 | a loop that does not track newlines stays on its line and moves the column by the number of characters read |
| Lexer.ScanLines | src/main/java/Lexer.java:245-248 | the whitespace loop adds one line per newline it skips |
| Lexer.ScanColumn | src/main/java/Lexer.java:245-248 | after the whitespace loop, the column counts the characters after the last skipped newline, or continues the old column when no newline was skipped |
| Lexer.SkipWhitespace | src/main/java/Lexer.java:245-248 | the loop at the top of getToken stops on a character that is not Java whitespace and never loses a line |
| Lexer.IdentifierOrKeyword | src/main/java/Lexer.java:186-193 | identifier_or_integer consumes input and never yields End_of_input |
| Lexer.CharLit | src/main/java/Lexer.java:124-135 | char_lit, when it succeeds, yields an Integer at the given position, consumes input and stays on the line |
| Lexer.ReadUntilQuote | src/main/java/Lexer.java:148 | the loop of string_lit stops on the next `"`, crossing newlines without counting them, or fails reading past the sentinel |
| Lexer.StringLit | src/main/java/Lexer.java:145-151 | string_lit, when it succeeds, yields a String at the given position and consumes input |
| Lexer.Follow | src/main/java/Lexer.java:106-115 | follow yields the two-character kind exactly when the next character is the expected one, the fallback kind otherwise, and fails exactly when there is no fallback |
| Lexer.Operator | src/main/java/Lexer.java:202-237 | operator keeps the lexer state valid, consumes input for every token but End_of_input, and hands out End_of_input only at the sentinel with empty text |
| Lexer.SkipLineComment | src/main/java/Lexer.java:164-167 | the `//` branch adds one line and stops on the newline or the sentinel |
| Lexer.SkipBlockComment | src/main/java/Lexer.java:168-176 | the block-comment branch, when it succeeds, ends at least two characters past its start and never loses a line |
| Lexer.DivOrComment | src/main/java/Lexer.java:162-178 | div_or_comment returns a token that satisfies the same progress and well-formedness guarantees as getToken |
| Lexer.GetToken | src/main/java/Lexer.java:244-272 | getToken never moves back; every token but End_of_input consumes input; a token's line lies between the lines before and after the read; End_of_input alone has empty text and comes only at the sentinel |
| Lexer.TokenAt | src/main/java/Lexer.java:250-253 | the dispatch on the first non-blank character keeps the getToken guarantees |
| Lexer.Punctuation | src/main/java/Lexer.java:254-271 | the final switch of getToken keeps the getToken guarantees |
| Lexer.LexFrom | src/main/java/Lexer.java:309-313 | the token stream ends with exactly one End_of_input, every earlier token has non-empty text, and line numbers never decrease |
| Lexer.PrintFromTokens | src/main/java/Lexer.java:306-315 | printTokens writes the toString of every token in order, one per line, with no newline after the End_of_input line |
| Lexer.PrintFromFails | src/main/java/Lexer.java:306-315 | printTokens fails exactly when reading the tokens fails |
| LexerProps.ScanStops | src/main/java/Lexer.java:188-191 | a loop started on a run of its class stops exactly at the run's end |
| LexerProps.Skipped | src/main/java/Lexer.java:245-248 | whitespace before a token changes nothing about the token read |
| LexerProps.EndOfInputAtBlankRest | src/main/java/Lexer.java:245-250 | when only whitespace is left, the next token is End_of_input with empty text, at the sentinel, on the line reached by counting the skipped newlines |
| LexerProps.LexOfBlank | src/main/java/Lexer.java:81-93 | blank source text lexes to the single End_of_input token, on line one plus the number of newlines |
| LexerProps.KeywordLookup | src/main/java/Lexer.java:87-91 | the keyword table gives a keyword kind exactly for the five keyword spellings, and that kind is named `Keyword_<spelling>` |
| LexerProps.IdentifierToken | src/main/java/Lexer.java:186-193 | a letter or `_` starts a token holding the maximal run of letters, digits and `_`, which is a keyword exactly on a keyword spelling and an Identifier otherwise |
| LexerProps.DigitToken | src/main/java/Lexer.java:124-128 | a digit starts an Integer token holding the maximal digit run |
| LexerProps.QuotedCharToken | src/main/java/Lexer.java:124-135 | `'c'` for a non-digit `c` is an Integer token whose text is `c` itself, and the read succeeds exactly when the closing quote is there; without it the read fails, fatally at the opening quote whenever a character stands where the quote belongs |
| LexerProps.QuotedDigitToken | src/main/java/Lexer.java:124-128 | a `'` followed by digits is an Integer token holding the digit run, and no closing quote is required |
| LexerProps.QuoteFound | src/main/java/Lexer.java:148 | the string loop collects exactly the characters up to the next `"` |
| LexerProps.QuoteMissing | src/main/java/Lexer.java:148 | without another `"` the string loop reads past the sentinel |
| LexerProps.StringToken | src/main/java/Lexer.java:145-151 | a string literal is a String token holding the characters between the quotes, with no escape processing; the character right after the opening quote is always text, even a `"`, and lexing resumes after the closing quote |
| LexerProps.UnterminatedString | src/main/java/Lexer.java:145-151 | an unterminated string reads past the sentinel |
| LexerProps.MinusToken | src/main/java/Lexer.java:203-208 | `-` skips the whitespace after it, counting its newlines, and is Op_negate exactly when a digit follows, Op_subtract otherwise, with text `-` at the position of the `-` |
| LexerProps.SingleOperatorToken | src/main/java/Lexer.java:211-228 | `*`, `%`, `+`, and `/` not starting a comment are one-character tokens of their own kinds |
| LexerProps.ComparisonToken | src/main/java/Lexer.java:229-232 | `<`, `>`, `=`, `!` take the two-character kind exactly when `=` follows, and the token's text is the character after the token followed by `=` |
| LexerProps.LogicalToken | src/main/java/Lexer.java:233-234 | `&&` and `\|\|` are Op_and and Op_or, with follow's value: the character after the pair, then the operator character; a lone `&` or `\|` is fatal at its position |
| LexerProps.PunctuationToken | src/main/java/Lexer.java:261-266 | each of `; , { } ( )` is a one-character token of its own kind |
| LexerProps.UnhandledCharacter | src/main/java/Lexer.java:268 | any other character is fatal at its position |
| LexerProps.HashBranch | src/main/java/Lexer.java:267 | `#` goes to div_or_comment on the character after it |
| LexerProps.HashDiscarded | src/main/java/Lexer.java:162-178 | a `#` followed by neither `/` nor `*` is dropped: the token read at the `#` is the token read from the character after it, whitespace before that token included |
| LexerProps.LineCommentEnds | src/main/java/Lexer.java:164-167 | a `//` comment is read up to its newline and adds one to the line count first |
| LexerProps.BlockCommentEnds | src/main/java/Lexer.java:168-176 | a block comment ends at the first `*` or `/` after its start, then two more characters are read, which fails past the sentinel; the lines it steps over are counted |
| ParserTypes.KindOfName | src/main/java/Parser.java:125 | the name lookup only ever returns the kind with that exact name |
| ParserTypes.NodeOfName | src/main/java/Parser.java:480-515 | the display-name lookup only returns the node kind with that exact name |
| ParserTypes.KindOfNode | src/main/java/Parser.java:80-106 | the reverse typeMap only returns a kind that the typeMap sends to the given node kind |
| ParserTables.KindOfNameOfName | src/main/java/Parser.java:409-440 | every token kind is found by its own name |
| ParserTables.NameInjective | src/main/java/Parser.java:409-440 | no two token kinds share a name |
| ParserTables.PrecedenceOfOperations | src/main/java/Parser.java:410-440 | a kind has a non-negative precedence exactly when it is one of the fifteen operations, which are exactly the kinds flagged binary or unary; precedences run from 4 to 14; all other kinds, Op_assign included, have -1 |
| ParserTables.OperationPrecedence | src/main/java/Parser.java:410-440 | every operation has a precedence between 4 and 14 and is binary or unary |
| ParserTables.OtherPrecedence | src/main/java/Parser.java:410-440 | every other kind has precedence -1 and is neither binary nor unary |
| ParserTables.AssociativityAndArity | src/main/java/Parser.java:410-440 | no kind is right-associative; Op_equal alone is both binary and unary; the unary kinds are Op_equal, Op_negate and Op_not |
| ParserTables.NodeOfNameOfName | src/main/java/Parser.java:480-515 | every node kind is found by its display name |
| ParserTables.NodeNameInjective | src/main/java/Parser.java:480-515 | no two node kinds share a display name |
| ParserTables.TypeMapInverse | src/main/java/Parser.java:80-106 | the reverse lookup undoes the typeMap on every kind it maps |
| ParserTables.TypeMapInjective | src/main/java/Parser.java:80-106 | no two token kinds map to the same node kind |
| ParserTables.TypeMapAgreesWithMetadata | src/main/java/Parser.java:80-106 | the typeMap and the TokenType node types agree wherever the map has an entry, except print and putc, where the enum says nd_None; kinds missing from the map have nd_None |
| Ast.DumpLines | src/main/java/Parser.java:382-404 | the pre-order dump has at least one line for any tree, null included |
| Ast.PrintASTLines | src/main/java/Parser.java:382-404 | printAST keeps the builder's contents and appends one newline-terminated line per dump line: `;` for null, type and value for a leaf, the type alone followed by the left and then the right subtree otherwise |
| Ast.DumpLineCount | src/main/java/Parser.java:382-404 | the dump has one line per null subtree, leaf and other node, and a leaf's subtrees are not counted |
| Ast.LeafHidesChildren | src/main/java/Parser.java:391-394 | a leaf prints `<type> <value>` and its subtrees never affect the output |
| Parser.NextToken | src/main/java/Parser.java:178-182 | nextToken makes the old current token the previous one and reads the token at position, which then moves on by one; past the end of the list it throws |
| Parser.NextTokenType | src/main/java/Parser.java:189-191 | nextTokenType is the kind nextToken would read, and fails exactly when nextToken would |
| Parser.Expect | src/main/java/Parser.java:212-219 | expect reads one token exactly when the current token has the expected kind; on another kind it fails at that token with the "Expecting ... found" message |
| Parser.ExpectToken | src/main/java/Parser.java:229-235 | the token form of expect succeeds exactly on the expected kind and fails at the token otherwise |
| Parser.SoftCheck | src/main/java/Parser.java:244-246 | softCheck is true exactly when expect would succeed on the same token |
| Parser.OpCheck | src/main/java/Parser.java:329-337 | opCheck fails exactly when nextToken would |
| Parser.ParentheticalExpression | src/main/java/Parser.java:198-203 | parentheticalExpression reads at least one token and keeps the cursor in step with the list |
| Parser.BraceStatement | src/main/java/Parser.java:317-322 | braceStatement reads at least one token and keeps the cursor in step with the list |
| Parser.AssignmentParse | src/main/java/Parser.java:271-276 | assignmentParse never succeeds |
| Parser.ExpressionParse | src/main/java/Parser.java:344-370 | expressionParse never moves the cursor back and keeps it in step with the list |
| Parser.StatementParse | src/main/java/Parser.java:285-315 | statementParse never moves the cursor back and keeps it in step with the list |
| Parser.Round | src/main/java/Parser.java:257-260 | one round of parse's loop reads at least one token and keeps the cursor in step with the list |
| ParserProps.OpCheckIsPrecedence | src/main/java/Parser.java:329-337 | opCheck is true exactly for the kinds with a non-negative precedence, which are exactly the binary or unary ones; it reads nothing, and past the end of the list it throws |
| ParserProps.OperandLeaf | src/main/java/Parser.java:355-362 | an operand not followed by an operation becomes a leaf of its typeMap type, and only that token is read |
| ParserProps.LeafPrintsNull | src/main/java/Parser.java:391-394 | such a leaf prints as its kind's name followed by ` null` |
| ParserProps.OperationYieldsNothing | src/main/java/Parser.java:346-368 | at an operation or a left brace, expressionParse returns null without reading anything |
| ParserProps.OperandOperation | src/main/java/Parser.java:356-358 | an operand followed by an operation becomes the operation's node, with the operand's leaf on its left and null on its right, and only the operation token is read |
| ParserProps.ParenthesisedOperand | src/main/java/Parser.java:347-354 | `( x )` not followed by an operation is the leaf of `x`, and the cursor moves past the closing parenthesis |
| ParserProps.AssignmentFails | src/main/java/Parser.java:271-276 | at an `=` with a token after it, assignmentParse fails at the `=` with "Expecting 'Identifier', found: 'Op_assign'" |
| ParserProps.AssignmentStatementFails | src/main/java/Parser.java:300-302 | the statement `x = ...` fails at the `=` with that message |
| ParserProps.BraceNeedsTwoLeftBraces | src/main/java/Parser.java:317-322 | a braced statement succeeds only when it opens on a left brace and its statement is followed by a second left brace |
| ParserProps.EmptyBlockFails | src/main/java/Parser.java:317-322 | `{ }` fails at the `}` with "Expecting 'LeftBrace', found: 'RightBrace'" |
| ParserProps.KeywordStatement | src/main/java/Parser.java:289-295 | a keyword statement is the keyword's typeMap node over the expression after it, with null on the right; `else` alone has no node type; the statement parses exactly when the expression does, and its dump is the keyword's line (`If`, `While`, `Prts`, `Prtc`, or `null` for `else`), then the expression's dump, then `;` |
| ParserProps.SequenceOf | src/main/java/Parser.java:258 | the chain of Sequence nodes is null exactly for no statements |
| ParserProps.ParseLoopChains | src/main/java/Parser.java:257-260 | parse's loop adds one Sequence node per statement, with the chain so far on the left and the statement on the right, and fails exactly when a statement or a read fails |
| ParserProps.ParseIsSequenceOfStatements | src/main/java/Parser.java:254-262 | parse succeeds exactly on a non-empty list whose statements all parse, and returns their left-leaning Sequence chain; an empty list throws at index 0 |
| ParserProps.ParseEmptyIffEndOfInput | src/main/java/Parser.java:254-262 | a successful parse returns null exactly when the first token is End_of_input |
| ParserProps.SequenceDump | src/main/java/Parser.java:382-404 | a program's dump is one Sequence line per statement, then `;` for the null at the bottom of the chain, then every statement's own dump in program order |
| ParserProps.EmptyProgramDump | src/main/java/Parser.java:254-262 | a parsed program dumps as the single line `;` exactly when its first token is End_of_input; any other program's dump starts with a Sequence line |
| TokenLine.CounterpartBijective | src/main/java/Parser.java:409-440 | the lexer's and the parser's TokenType declare the same thirty-one constants: the two name-preserving maps between them are inverse to each other |
| TokenLine.CounterpartName | src/main/java/Parser.java:125 | every lexer constant has the parser constant of the same name, and every name is a single word |
| TokenLine.OriginName | src/main/java/Parser.java:125 | every parser constant has the lexer constant of the same name |
| TokenLine.LexerNameFound | src/main/java/Parser.java:151-153 | the decoder's name lookup finds every name the lexer prints |
| TokenLine.DecodeLine | src/main/java/Parser.java:139-157 | a line decodes exactly when it has three words, the first two parse as ints, and the third names a kind; the token then has those numbers and that kind, and its value splits back into the remaining words; a blank line and an unknown name give their own errors |
| TokenLine.DecodeLines | src/main/java/Parser.java:138-157 | over lines given already split, the loop yields at most one token per line, and nothing once no line left holds a word |
| TokenLine.DecodeFile | src/main/java/Parser.java:138-157 | the loop over the file's text ends with no token when only Java whitespace is left, and yields at least one token or fails when anything else is left |
| Text.NextLine | src/main/java/Parser.java:139 | nextLine splits the unread text into the line it returns, the terminator it skips and the text it leaves: the three make up the text, the line holds no terminator, the terminator is `\r\n` or one break character, or empty only at the end of the text, and a `\r` is never taken without the `\n` after it |
| TokenLine.FileAsLines | src/main/java/Parser.java:138-139 | on a text without U+0085, the hasNext/nextLine loop decodes exactly what the loop over the text's split lines decodes |
| TokenLine.NextLineCharIsRead | src/main/java/Parser.java:138-142 | a blank line followed by U+0085 is read, since U+0085 is not Java whitespace, and ends the run with NoSuchElementException, although its split lines alone hold no word |
| TokenLine.WordsOfTokenText | src/main/java/Lexer.java:38-46 | a printed token line splits into its line, its column, its kind's name and the words of its value part |
| TokenLine.TokenTextFilled | src/main/java/Lexer.java:38-46 | a printed token line is never blank |
| TokenLine.DecodeTokenText | src/main/java/Parser.java:139-157 | decoding a printed token line gives the token back: the kind of the same name, the same line and column, and the printed value's words each followed by a space |
| TokenLine.DecodeTokenTexts | src/main/java/Parser.java:138-157 | decoding the printed texts of a token list, one line per token, gives back every token, in order |
| TokenLine.TokenTextOneLine | src/main/java/Lexer.java:38-46 | a token prints on a single line exactly when the value part toString prints for it holds no line terminator |
| TokenLine.SuffixBreak | src/main/java/Lexer.java:38-46 | the value part toString prints for a token holds a line terminator exactly when the token is an Integer, Identifier or String whose value holds one; the follow character an operator token keeps is never printed |
| TokenLine.PrintedText | src/main/java/Lexer.java:306-315 | the text printTokens writes is the tokens' printed texts joined by newlines |
| TokenLine.PrintedLines | src/main/java/Parser.java:138-139 | Scanner's split of the printed text gives back exactly one line per token, each the token's text, if and only if no token's printed value holds a line terminator |
| TokenLine.BrokenValueSplits | src/main/java/Parser.java:139 | when the printed value of some token holds a line terminator (a String read across lines, or the Integer of a quoted line break), Scanner's split of the printed text is not the list of the tokens' texts |
| TokenLine.DecodePrintedTokens | src/main/java/Parser.java:138-157 | reading the file printTokens wrote as Scanner reads it, with hasNext and nextLine, and decoding each line gives back every token the lexer read, in order, when no token's printed value holds a line terminator and every line and column fits an int |
| Text.SplitLines | src/main/java/Parser.java:139 | Scanner.nextLine's split of a text gives at least one line, and no line holds a line terminator |
| Text.SplitJoin | src/main/java/Parser.java:139 | splitting lines joined by `\n` gives the lines back when none holds a line terminator |
| TokenLine.BlankLineStops | src/main/java/Parser.java:138-142 | while some character further on is not Java whitespace, a next line without words ends the run with NoSuchElementException |
| TokenLine.TrailingBlankText | src/main/java/Parser.java:138 | appending whitespace-only lines to a file of lines without terminators leaves what it decodes to unchanged: they are never read |

## Left out

- The `main` methods of both classes, `outputToFile`, `Scanner`/`File` reading and the directory listings are left out: file I/O. The decoder takes the file's text and reads it as Scanner does: hasNext with the default delimiter, then nextLine (TokenLine.DecodeFile, Text.NextLine).
- Parser.main keeps one token list and one string builder across all files. The model decodes and parses one file at a time.
- The `System.out` echo inside `printAST`, and the printing and `System.exit` in both `error` methods, are left out. A fatal error is an `Err` result carrying its line, column and message. The `"%s in line %d, pos %d"` formatting is not modelled.
- Parser.Token.toString, the Node setters, the Node getters other than `getType`, the unused `Node()` constructor and the `java.awt` import are left out: nothing in the core calls them. `getType`, which printAST calls, is the `kind` field of a tree node.
- Characters: a Java `char` is a UTF-16 unit, while a Dafny `char` is a Unicode scalar value. Text outside the Basic Multilingual Plane is not modelled. `Character.isWhitespace` is modelled as defined since Java 14.
- Token line and column are unbounded integers. A 32-bit overflow of `line` or `pos` is not modelled. The decoder's round trip assumes both fit an `int`, as the lexer's own fields do.
- Lexer.GetToken, Lexer.DivOrComment, Lexer.SkipLineComment, Lexer.SkipBlockComment: line numbers across `//` and `#` comments are modelled as written, and only the shape of each step is proved. No lemma states a line count across a whole comment, because the source counts a `//` comment's newline twice.
- ParserProps.OperandOperation: the operator branches of expressionParse are modelled literally. Only the one-operand cases are proved, because the grammar there is unfinished and its trees keep no stable meaning.
- TokenLine.DecodePrintedTokens: the round trip is promised only when no token's printed value holds a line terminator (`\n`, `\r`, U+0085, U+2028 or U+2029). Only Integer, Identifier and String tokens print their value (TokenLine.SuffixBreak), and two of them can hold a break: a String, because string_lit reads across lines, and the Integer of a character literal whose quoted character is a line break, because char_lit takes any character between the quotes. The value an operator token keeps from follow is never printed, so it does not matter. TokenLine.PrintedLines and TokenLine.BrokenValueSplits show that for every such token the file's lines are not the tokens' texts, and no round trip is claimed for that case.
- TokenLine.DecodeLine: Text.ParseInt accepts ASCII digits only, while Integer.parseInt also accepts the other Unicode decimal digits. A line whose number words use such digits is rejected by the model where Java would accept it. Under the locale the model fixes (see the line below), the lexer prints ASCII digits only, so the round trip is not affected.
- Lexer.TokenText, Lexer.UnrecognizedMessage: `String.format` writes `%5d` and `%d` in the digits of the default locale. The model fixes a locale whose digits are the ASCII `0` to `9`, such as Locale.ROOT or English. A locale with other digits, for example one tagged `-u-nu-arab`, is not modelled.
- TokenLine.DecodeLines: the loop over lines given already split cannot see the terminators between them. On a text that holds U+0085 it differs from Scanner's loop (TokenLine.NextLineCharIsRead), so it is only claimed for texts without U+0085 (TokenLine.FileAsLines). The decoder itself is TokenLine.DecodeFile, which reads the unsplit text.

=== FILE: ast.dfy ===
/** Parser.Node and printAST: the syntax tree the parser builds and the
    pre-order text it is dumped as. */
module Ast {
  import opened Base
  import opened Text
  import opened ParserTypes

  /** A Node reference; `Nil` is Java's `null`. The node's `type` may be
      `null` too (the typeMap has no entry for `else`), and so may its
      `value`, which no constructor the parser calls ever sets. */
  datatype Tree =
    | Nil
    | Node(token: Option<Token>, kind: Option<NodeType>, value: Option<string>, left: Tree, right: Tree)

  /** Node.makeNode: every node the parser builds has a null value. */
  function MakeNode(token: Option<Token>, kind: Option<NodeType>, left: Tree, right: Tree): Tree {
    Node(token, kind, None, left, right)
  }

  /** `new Node(token, type)` and the two-argument makeNode: no children. */
  function Leaf(token: Option<Token>, kind: Option<NodeType>): Tree {
    MakeNode(token, kind, Nil, Nil)
  }

  /** `sb.append(t.getType())`: the display name, or "null" for a null type. */
  function KindText(kind: Option<NodeType>): string {
    if kind.Some? then NodeName(kind.value) else "null"
  }

  /** `" " + t.value` without the space: "null" for a null value. */
  function ValueText(value: Option<string>): string {
    if value.Some? then value.value else "null"
  }

  /** The node types printAST prints with their value and without children. */
  predicate IsLeafKind(kind: Option<NodeType>) {
    kind == Some(NdIdent) || kind == Some(NdInteger) || kind == Some(NdString)
  }

  /** printAST(t, sb): appends the pre-order dump of `t` to `sb` and returns
      the whole buffer. */
  function PrintAST(t: Tree, sb: string): string {
    match t
    case Nil => sb + ";" + "\n"
    case Node(_, kind, value, left, right) =>
      var head := sb + KindText(kind);
      if IsLeafKind(kind) then head + (" " + ValueText(value)) + "\n"
      else PrintAST(right, PrintAST(left, head + "\n"))
  }

  /** The same dump, as the list of its lines: `;` for a null subtree, the
      type and value of a leaf, the type alone of any other node followed by
      the lines of its left and then its right subtree. */
  function DumpLines(t: Tree): (ls: seq<string>)
    ensures |ls| >= 1
  {
    match t
    case Nil => [";"]
    case Node(_, kind, value, left, right) =>
      if IsLeafKind(kind) then [KindText(kind) + " " + ValueText(value)]
      else [KindText(kind)] + DumpLines(left) + DumpLines(right)
  }

  /** printAST only ever appends: the buffer it is given is kept, followed by
      one newline-terminated line per entry of the dump. */
  lemma {:induction false} PrintASTLines(t: Tree, sb: string)
    ensures PrintAST(t, sb) == sb + Unlines(DumpLines(t))
  {
    match t
    case Nil =>
      assert Unlines([";"]) == ";" + "\n" + Unlines([]);
    case Node(_, kind, value, left, right) =>
      if IsLeafKind(kind) {
        var line := KindText(kind) + " " + ValueText(value);
        assert Unlines([line]) == line + "\n" + Unlines([]);
      } else {
        var head := sb + KindText(kind);
        PrintASTLines(left, head + "\n");
        PrintASTLines(right, PrintAST(left, head + "\n"));
        UnlinesAppend([KindText(kind)] + DumpLines(left), DumpLines(right));
        UnlinesAppend([KindText(kind)], DumpLines(left));
        assert Unlines([KindText(kind)]) == KindText(kind) + "\n" + Unlines([]);
      }
  }

  /** The number of lines of a dump: one per null subtree, per leaf and per
      other node, with the subtrees under a leaf not counted. */
  function Slots(t: Tree): nat {
    match t
    case Nil => 1
    case Node(_, kind, _, left, right) => if IsLeafKind(kind) then 1 else 1 + Slots(left) + Slots(right)
  }

  lemma {:induction false} DumpLineCount(t: Tree)
    ensures |DumpLines(t)| == Slots(t)
  {
    match t
    case Nil =>
    case Node(_, kind, _, left, right) =>
      if !IsLeafKind(kind) {
        DumpLineCount(left);
        DumpLineCount(right);
      }
  }

  /** A leaf's subtrees are never printed: replacing them changes nothing. */
  lemma LeafHidesChildren(token: Option<Token>, kind: Option<NodeType>, value: Option<string>, l1: Tree, r1: Tree, l2: Tree, r2: Tree, sb: string)
    requires IsLeafKind(kind)
    ensures PrintAST(Node(token, kind, value, l1, r1), sb) == PrintAST(Node(token, kind, value, l2, r2), sb)
    ensures PrintAST(Node(token, kind, value, l1, r1), sb) == sb + KindText(kind) + " " + ValueText(value) + "\n"
  {
  }

  /** No tree at all, the outcome of parsing an empty program, is dumped as
      a single `;` line. */
  lemma EmptyDump(sb: string)
    ensures PrintAST(Nil, sb) == sb + ";\n"
  {
  }
}

=== FILE: base.dfy ===
/** Shared result and error types for the lexer and parser model.

    Every `error(...)` call of the Java code prints a message and calls
    `System.exit(1)`; every uncaught Java exception (a `charAt` or `List.get`
    past the end, a method called on `null`, a failed `Integer.parseInt`)
    ends the run as well. The model returns such an outcome as `Err`. */
module Base {

  datatype Option<+T> = None | Some(value: T)

  /** Why a run stops. */
  datatype Error =
    | Fatal(line: int, pos: int, msg: string) // error(line, pos, msg), then System.exit(1)
    | IndexOutOfBounds(index: int)            // String.charAt / List.get past the end
    | NullReference                           // a field or method of a null token
    | NoSuchElement                           // StringTokenizer.nextToken with no word left
    | NumberFormat(word: string)              // Integer.parseInt on a word that is no int
    | TokenNotFound(name: string)             // the decoder's "Token not found" exception

  /** A value or the error that ended the run; usable with `:-`. */
  datatype Result<+T> = Ok(value: T) | Err(error: Error) {

    predicate IsFailure() {
      Err?
    }

    function PropagateFailure<U>(): Result<U>
      requires Err?
    {
      Err(error)
    }

    function Extract(): T
      requires Ok?
    {
      value
    }
  }
}

=== FILE: lexer.dfy ===
/** The character-level lexer of Lexer.java.

    The Java lexer keeps four fields: `line`, `pos` (column of the current
    character), `position` (its index) and `chr` (the character itself), over
    the source with a `'\u0000'` sentinel appended. Here the state is the
    immutable `LexState`, `chr` is always `s[position]`, and each Java method
    becomes a function from a state to the token it returns and the state it
    leaves behind. */
module Lexer {
  import opened Base
  import opened Text

  // ---------------------------------------------------------------------------
  // Tokens
  // ---------------------------------------------------------------------------

  /** Lexer.TokenType, in declaration order. */
  datatype TokenType =
    | EndOfInput | OpMultiply | OpDivide | OpMod | OpAdd | OpSubtract
    | OpNegate | OpNot | OpLess | OpLessEqual | OpGreater | OpGreaterEqual
    | OpEqual | OpNotEqual | OpAssign | OpAnd | OpOr | KeywordIf
    | KeywordElse | KeywordWhile | KeywordPrint | KeywordPutc | LeftParen | RightParen
    | LeftBrace | RightBrace | Semicolon | Comma | Identifier | Integer | String

  /** The name of the enum constant, which is what `%s` prints for it. */
  function Name(t: TokenType): string {
    match t
    case EndOfInput => "End_of_input"
    case OpMultiply => "Op_multiply"
    case OpDivide => "Op_divide"
    case OpMod => "Op_mod"
    case OpAdd => "Op_add"
    case OpSubtract => "Op_subtract"
    case OpNegate => "Op_negate"
    case OpNot => "Op_not"
    case OpLess => "Op_less"
    case OpLessEqual => "Op_lessequal"
    case OpGreater => "Op_greater"
    case OpGreaterEqual => "Op_greaterequal"
    case OpEqual => "Op_equal"
    case OpNotEqual => "Op_notequal"
    case OpAssign => "Op_assign"
    case OpAnd => "Op_and"
    case OpOr => "Op_or"
    case KeywordIf => "Keyword_if"
    case KeywordElse => "Keyword_else"
    case KeywordWhile => "Keyword_while"
    case KeywordPrint => "Keyword_print"
    case KeywordPutc => "Keyword_putc"
    case LeftParen => "LeftParen"
    case RightParen => "RightParen"
    case LeftBrace => "LeftBrace"
    case RightBrace => "RightBrace"
    case Semicolon => "Semicolon"
    case Comma => "Comma"
    case Identifier => "Identifier"
    case Integer => "Integer"
    case String => "String"
  }

  /** Lexer.Token: kind, text, and the line and column where it starts. */
  datatype Token = Token(kind: TokenType, value: string, line: int, pos: int)

  /** Token.toString: `"%5d  %5d %-15s"` of line, column and kind, then the
      value for the three kinds that carry one. */
  function TokenText(t: Token): string {
    PadLeft(IntToString(t.line), 5) + "  " + PadLeft(IntToString(t.pos), 5) + " "
      + PadRight(Name(t.kind), 15) + ValueSuffix(t)
  }

  function ValueSuffix(t: Token): string {
    match t.kind
    case Integer => "  " + PadLeft(t.value, 4)
    case Identifier => " " + t.value
    case String => " \"" + t.value + "\""
    case _ => ""
  }

  // ---------------------------------------------------------------------------
  // State and character reads
  // ---------------------------------------------------------------------------

  /** The end marker the constructor appends to the source. */
  const Sentinel: char := '\0'

  /** The lexer's fields; the current character `chr` is `s[position]`. */
  datatype LexState = LexState(s: string, line: int, pos: int, position: int)

  /** What holds of every state the lexer reaches between two reads. */
  predicate Valid(st: LexState) {
    && |st.s| > 0 && st.s[|st.s| - 1] == Sentinel
    && 0 <= st.position < |st.s|
    && st.line >= 1 && st.pos >= 1
  }

  function Chr(st: LexState): char
    requires 0 <= st.position < |st.s|
  {
    st.s[st.position]
  }

  /** getNextChar where the read cannot run past the end. */
  function Step(st: LexState): LexState
    requires -1 <= st.position && st.position + 1 < |st.s|
  {
    st.(pos := st.pos + 1, position := st.position + 1)
  }

  /** getNextChar: one more column, one more index; `charAt` past the
      sentinel throws. */
  function NextChar(st: LexState): (r: Result<LexState>)
    requires 0 <= st.position
    ensures r.Ok? <==> st.position + 1 < |st.s|
    ensures r.Ok? ==> r.value.pos == st.pos + 1 && r.value.position == st.position + 1
    ensures r.Ok? ==> r.value.line == st.line && r.value.s == st.s
  {
    if st.position + 1 < |st.s| then Ok(Step(st)) else Err(IndexOutOfBounds(st.position + 1))
  }

  /** The constructor: sentinel appended, line 1, and the first character
      already read, so it sits at column 1. */
  function Init(source: string): (st: LexState)
    ensures Valid(st) && st.s == source + [Sentinel]
    ensures st.line == 1 && st.pos == 1 && st.position == 0
    ensures Chr(st) == if source == [] then Sentinel else source[0]
  {
    Step(LexState(source + [Sentinel], 1, 0, -1))
  }

  // ---------------------------------------------------------------------------
  // Character classes
  // ---------------------------------------------------------------------------

  predicate IsDigit(c: char) {
    48 <= c as int <= 57
  }

  predicate IsAlpha(c: char) {
    (97 <= c as int <= 122) || (65 <= c as int <= 90)
  }

  predicate IsOperator(c: char) {
    c == '*' || c == '/' || c == '%' || c == '+' || c == '-' || c == '<'
    || c == '=' || c == '>' || c == '!' || c == '|' || c == '&'
  }

  /** Java's Character.isWhitespace: the space separators other than the
      no-break spaces, the line and paragraph separators, U+0009..U+000D and
      U+001C..U+001F. */
  predicate IsWhitespace(c: char) {
    c == ' ' || ('\t' <= c <= '\r') || ('\U{1C}' <= c <= '\U{1F}')
    || c == '\U{1680}' || ('\U{2000}' <= c <= '\U{2006}') || ('\U{2008}' <= c <= '\U{200A}')
    || c == '\U{2028}' || c == '\U{2029}' || c == '\U{205F}' || c == '\U{3000}'
  }

  /** The character runs the lexer's loops read. */
  datatype CharClass =
    | Digits      // the digit loop of char_lit
    | IdentChars  // the loop of identifier_or_integer
    | Whitespace  // the whitespace loops of getToken and of operator's `-` case
    | LineBody    // the `//` loop of div_or_comment
    | BlockBody   // the block-comment loop of div_or_comment

  predicate InClass(cls: CharClass, c: char)
    ensures InClass(cls, c) ==> c != Sentinel
  {
    match cls
    case Digits => IsDigit(c)
    case IdentChars => IsAlpha(c) || IsDigit(c) || c == '_'
    case Whitespace => IsWhitespace(c)
    case LineBody => c != '\n' && c != Sentinel
    case BlockBody => c != '*' && c != '/' && c != Sentinel
  }

  /** getNextChar inside a loop: with `track`, a newline first moves to the
      next line and column 0, so the character after it is at column 1. */
  function After(st: LexState, track: bool): (n: LexState)
    requires Valid(st) && Chr(st) != Sentinel
    ensures Valid(n) && n.s == st.s && n.position == st.position + 1
    ensures n.line == st.line + (if track && Chr(st) == '\n' then 1 else 0)
    ensures n.pos == if track && Chr(st) == '\n' then 1 else st.pos + 1
  {
    if track && Chr(st) == '\n' then Step(st.(line := st.line + 1, pos := 0)) else Step(st)
  }

  /** Reads the maximal run of `cls` characters starting at the current one
      and returns the state on the first character after it. With `track`,
      each newline stepped over increments `line` and sets `pos` to 0 before
      the read, as the whitespace and block-comment loops do
      (see `ScanLines` for the exact counts). */
  function Scan(st: LexState, cls: CharClass, track: bool): (n: LexState)
    requires Valid(st)
    ensures Valid(n) && n.s == st.s && st.position <= n.position && st.line <= n.line
    ensures !InClass(cls, Chr(n))
    ensures InClass(cls, Chr(st)) ==> st.position < n.position
    ensures !track ==> n.line == st.line
    decreases |st.s| - st.position
  {
    if !InClass(cls, Chr(st)) then st else Scan(After(st, track), cls, track)
  }

  /** The text a scan stepped over. */
  function Run(st: LexState, n: LexState): string
    requires 0 <= st.position <= n.position <= |st.s| && n.s == st.s
  {
    st.s[st.position..n.position]
  }

  /** Every character a scan steps over is of its class. */
  lemma {:induction false} ScanRun(st: LexState, cls: CharClass, track: bool)
    requires Valid(st)
    ensures var n := Scan(st, cls, track);
      forall i | st.position <= i < n.position :: InClass(cls, st.s[i])
    decreases |st.s| - st.position
  {
    var c := Chr(st);
    if InClass(cls, c) {
      ScanRun(After(st, track), cls, track);
    }
  }

  /** Without `track`, a scan stays on its line and moves the column by the
      number of characters read. */
  lemma {:induction false} ScanFlat(st: LexState, cls: CharClass)
    requires Valid(st)
    ensures var n := Scan(st, cls, false);
      n.line == st.line && n.pos == st.pos + (n.position - st.position)
    decreases |st.s| - st.position
  {
    if InClass(cls, Chr(st)) {
      ScanFlat(After(st, false), cls);
    }
  }

  /** With `track`, a scan adds one line per newline it steps over. */
  lemma {:induction false} ScanLines(st: LexState, cls: CharClass)
    requires Valid(st)
    ensures var n := Scan(st, cls, true); n.line == st.line + CountOf('\n', Run(st, n))
    decreases |st.s| - st.position
  {
    var c := Chr(st);
    var n := Scan(st, cls, true);
    if InClass(cls, c) {
      var next := After(st, true);
      ScanLines(next, cls);
      SliceCons(st.s, st.position, n.position);
      CountOfCons('\n', c, Run(next, n));
    } else {
      assert Run(st, n) == [];
    }
  }

  /** The column reached after reading `run` from column `p`: the count
      of characters after its last newline, or `p` moved on by the whole
      run when it holds none. */
  function ColumnAfter(run: string, p: int): int {
    if '\n' in run then |run| - LastIndexOf('\n', run) else p + |run|
  }

  /** With `track`, the column a scan stops at counts the characters after
      the last newline it stepped over, or continues the starting column when
      there is none. */
  lemma {:induction false} ScanColumn(st: LexState, cls: CharClass)
    requires Valid(st)
    ensures var n := Scan(st, cls, true); n.pos == ColumnAfter(Run(st, n), st.pos)
    decreases |st.s| - st.position
  {
    var c := Chr(st);
    var n := Scan(st, cls, true);
    if InClass(cls, c) {
      var next := After(st, true);
      assert n == Scan(next, cls, true);
      ScanColumn(next, cls);
      SliceCons(st.s, st.position, n.position);
      assert Run(st, n) == [c] + Run(next, n);
      ColumnCons(Run(st, n), c, Run(next, n), st.pos, next.pos);
    } else {
      assert Run(st, n) == [];
    }
  }

  /** The column after a run, from the column after its first character. */
  lemma ColumnCons(run: string, c: char, tail: string, p: int, q: int)
    requires run == [c] + tail && q == if c == '\n' then 1 else p + 1
    ensures ColumnAfter(run, p) == ColumnAfter(tail, q)
  {
    assert run[1..] == tail;
    if '\n' in tail {
      assert LastIndexOf('\n', run) == 1 + LastIndexOf('\n', tail);
    }
  }

  /** The whitespace loop at the top of getToken (and after a `-`). */
  function SkipWhitespace(st: LexState): (n: LexState)
    requires Valid(st)
    ensures Valid(n) && n.s == st.s && st.position <= n.position && st.line <= n.line
    ensures !IsWhitespace(Chr(n))
  {
    Scan(st, Whitespace, true)
  }

  // ---------------------------------------------------------------------------
  // Token readers
  // ---------------------------------------------------------------------------

  /** A token and the state after it. */
  datatype Lexed = Lexed(tok: Token, rest: LexState)

  /** What a successful read guarantees: the state stays valid, nothing is
      un-read, every token but End_of_input consumes input, and the token's
      line lies between the line before and the line after the read. */
  predicate Progress(st: LexState, r: Result<Lexed>) {
    r.Ok? ==>
      && Valid(r.value.rest) && r.value.rest.s == st.s
      && st.position <= r.value.rest.position
      && (r.value.tok.kind != EndOfInput ==> st.position < r.value.rest.position)
      && st.line <= r.value.tok.line <= r.value.rest.line
      && r.value.tok.pos >= 1
  }

  /** End_of_input is the one token with empty text, and it is only handed
      out with the sentinel as the current character. */
  predicate WellFormed(r: Result<Lexed>) {
    r.Ok? ==>
      && (r.value.tok.kind == EndOfInput <==> r.value.tok.value == "")
      && (r.value.tok.kind == EndOfInput ==> 0 <= r.value.rest.position < |r.value.rest.s| && Chr(r.value.rest) == Sentinel)
  }

  /** The keyword table the constructor fills. */
  const Keywords: map<string, TokenType> :=
    map["if" := KeywordIf, "else" := KeywordElse, "print" := KeywordPrint,
        "putc" := KeywordPutc, "while" := KeywordWhile]

  /** Keyword lookup of identifier_or_integer: a keyword kind on an exact
      match, Identifier otherwise. */
  function KeywordOrIdentifier(text: string): TokenType {
    if text in Keywords then Keywords[text] else Identifier
  }

  /** identifier_or_integer: the maximal run of letters, digits and `_`. */
  function IdentifierOrKeyword(st: LexState): (r: Lexed)
    requires Valid(st) && (IsAlpha(Chr(st)) || Chr(st) == '_')
    ensures Progress(st, Ok(r)) && r.tok.kind != EndOfInput
  {
    var n := Scan(st, IdentChars, false);
    var text := Run(st, n);
    Lexed(Token(KeywordOrIdentifier(text), text, st.line, st.pos), n)
  }

  /** The message char_lit and follow report for an unexpected character. */
  function UnrecognizedMessage(c: char): string {
    "follow: unrecognized character: (" + IntToString(c as int) + ") '" + [c] + "'"
  }

  /** char_lit, entered on a digit or on the character after a `'`: a digit
      run is read as is (a closing quote is not looked for); any other
      character must be followed by `'` and becomes the token's text. */
  function CharLit(st: LexState, line: int, pos: int): (r: Result<Lexed>)
    requires Valid(st)
    ensures r.Ok? ==> Valid(r.value.rest) && r.value.rest.s == st.s
    ensures r.Ok? ==> st.position < r.value.rest.position && r.value.rest.line == st.line
    ensures r.Ok? ==> r.value.tok.kind == Integer && r.value.tok.line == line && r.value.tok.pos == pos
  {
    var c := Chr(st);
    if IsDigit(c) then
      var n := Scan(st, Digits, false);
      Ok(Lexed(Token(Integer, Run(st, n), line, pos), n))
    else
      var n :- NextChar(st);
      if Chr(n) == '\'' then Ok(Lexed(Token(Integer, [c], line, pos), Step(n)))
      else Err(Fatal(line, pos, UnrecognizedMessage(Chr(n))))
  }

  /** The loop of string_lit: reads the characters after the current one up
      to the next `"`; reading past the sentinel throws. */
  function ReadUntilQuote(st: LexState): (r: Result<(string, LexState)>)
    requires Valid(st)
    ensures r.Ok? ==> Valid(r.value.1) && r.value.1.s == st.s && r.value.1.line == st.line
    ensures r.Ok? ==> Chr(r.value.1) == '"' && st.position < r.value.1.position
    ensures r.Err? ==> r.error == IndexOutOfBounds(|st.s|)
    decreases |st.s| - st.position
  {
    var n :- NextChar(st);
    if Chr(n) == '"' then Ok(("", n))
    else
      var p :- ReadUntilQuote(n);
      Ok(([Chr(n)] + p.0, p.1))
  }

  /** string_lit, entered on the character after the opening `"`: that
      character and everything up to the next `"`, which is skipped. */
  function StringLit(st: LexState, line: int, pos: int): (r: Result<Lexed>)
    requires Valid(st)
    ensures r.Ok? ==> Valid(r.value.rest) && r.value.rest.s == st.s
    ensures r.Ok? ==> st.position < r.value.rest.position && r.value.rest.line == st.line
    ensures r.Ok? ==> r.value.tok.kind == String && r.value.tok.line == line && r.value.tok.pos == pos
  {
    var p :- ReadUntilQuote(st);
    Ok(Lexed(Token(String, [Chr(st)] + p.0, line, pos), Step(p.1)))
  }

  /** follow: the two-character kind when the next character is `second`,
      else the one-character kind; `End_of_input` as the fallback means there
      is none and the lone character is fatal. The value is the character
      after the one just read followed by `second`, as the source builds it. */
  function Follow(st: LexState, second: char, ifYes: TokenType, ifNo: TokenType, line: int, pos: int): (r: Result<Lexed>)
    requires Valid(st) && Chr(st) != Sentinel && second != Sentinel
    ensures r.Ok? ==> Valid(r.value.rest) && r.value.rest.s == st.s && r.value.rest.line == st.line
    ensures r.Ok? ==> r.value.tok.line == line && r.value.tok.pos == pos
    ensures r.Ok? <==> st.s[st.position + 1] == second || ifNo != EndOfInput
    ensures r.Ok? ==> r.value.tok.kind == (if st.s[st.position + 1] == second then ifYes else ifNo)
    ensures r.Ok? ==> r.value.rest.position == st.position + (if st.s[st.position + 1] == second then 2 else 1)
  {
    var n := Step(st);
    if Chr(n) == second then
      var m := Step(n);
      Ok(Lexed(Token(ifYes, [Chr(m), second], line, pos), m))
    else if ifNo == EndOfInput then Err(Fatal(line, pos, UnrecognizedMessage(Chr(n))))
    else Ok(Lexed(Token(ifNo, [Chr(n), second], line, pos), n))
  }

  /** operator, entered on an operator character. */
  function Operator(st: LexState): (r: Result<Lexed>)
    requires Valid(st) && IsOperator(Chr(st))
    ensures Progress(st, r) && WellFormed(r)
    decreases |st.s| - st.position, 0
  {
    var c := Chr(st);
    if c == '-' then
      var w := SkipWhitespace(Step(st));
      Ok(Lexed(Token(if IsDigit(Chr(w)) then OpNegate else OpSubtract, "-", st.line, st.pos), w))
    else if c == '*' then Ok(Lexed(Token(OpMultiply, "*", st.line, st.pos), Step(st)))
    else if c == '/' then
      var n := Step(st);
      if Chr(n) == '*' || Chr(n) == '/' then DivOrComment(n)
      else Ok(Lexed(Token(OpDivide, "/", st.line, st.pos), n))
    else if c == '%' then Ok(Lexed(Token(OpMod, "%", st.line, st.pos), Step(st)))
    else if c == '+' then Ok(Lexed(Token(OpAdd, "+", st.line, st.pos), Step(st)))
    else if c == '<' then Follow(st, '=', OpLessEqual, OpLess, st.line, st.pos)
    else if c == '>' then Follow(st, '=', OpGreaterEqual, OpGreater, st.line, st.pos)
    else if c == '=' then Follow(st, '=', OpEqual, OpAssign, st.line, st.pos)
    else if c == '!' then Follow(st, '=', OpNotEqual, OpNot, st.line, st.pos)
    else if c == '&' then Follow(st, '&', OpAnd, EndOfInput, st.line, st.pos)
    else
      // The source's `default: return null` cannot be reached.
      assert c == '|';
      Follow(st, '|', OpOr, EndOfInput, st.line, st.pos)
  }

  /** The `//` loop of div_or_comment: `line` is bumped first, then the
      comment is read up to (not over) the newline or the sentinel. */
  function SkipLineComment(st: LexState): (n: LexState)
    requires Valid(st)
    ensures Valid(n) && n.s == st.s && st.position <= n.position
    ensures n.line == st.line + 1 && (Chr(n) == '\n' || Chr(n) == Sentinel)
  {
    Scan(st.(line := st.line + 1), LineBody, false)
  }

  /** The block-comment loop of div_or_comment, entered on the `*`: it reads
      up to the first `*`, `/` or sentinel after it, then reads two more
      characters, which can run past the sentinel. */
  function SkipBlockComment(st: LexState): (r: Result<LexState>)
    requires Valid(st) && Chr(st) != Sentinel
    ensures r.Ok? ==> Valid(r.value) && r.value.s == st.s && st.position + 2 < r.value.position
    ensures r.Ok? ==> st.line <= r.value.line
  {
    var m1 :- NextChar(Scan(Step(st), BlockBody, true));
    NextChar(m1)
  }

  /** div_or_comment, entered on the character after `/` or `#`: comments
      are skipped and the next token is read. */
  function DivOrComment(st: LexState): (r: Result<Lexed>)
    requires Valid(st)
    ensures Progress(st, r) && WellFormed(r)
    decreases |st.s| - st.position, 3
  {
    if Chr(st) == '/' then GetToken(SkipLineComment(st))
    else if Chr(st) == '*' then
      var m :- SkipBlockComment(st);
      GetToken(m)
    else GetToken(st)
  }

  /** getToken: skips whitespace, then dispatches on the current character. */
  function GetToken(st: LexState): (r: Result<Lexed>)
    requires Valid(st)
    ensures Progress(st, r) && WellFormed(r)
    decreases |st.s| - st.position, 2
  {
    TokenAt(SkipWhitespace(st))
  }

  /** The dispatch of getToken once the whitespace is behind it. */
  function TokenAt(w: LexState): (r: Result<Lexed>)
    requires Valid(w) && !IsWhitespace(Chr(w))
    ensures Progress(w, r) && WellFormed(r)
    decreases |w.s| - w.position, 1
  {
    var c := Chr(w);
    if c == Sentinel then Ok(Lexed(Token(EndOfInput, "", w.line, w.pos), w))
    else if IsAlpha(c) || c == '_' then Ok(IdentifierOrKeyword(w))
    else if IsDigit(c) then CharLit(w, w.line, w.pos)
    else if IsOperator(c) then Operator(w)
    else Punctuation(w)
  }

  /** The `switch` at the end of getToken, entered on any other character:
      it is read, then quotes start literals, punctuation maps to its own
      kind, `#` goes to div_or_comment and anything else is fatal. */
  function Punctuation(w: LexState): (r: Result<Lexed>)
    requires Valid(w) && Chr(w) != Sentinel
    ensures Progress(w, r) && WellFormed(r)
    decreases |w.s| - w.position, 0
  {
    var c := Chr(w);
    var n := Step(w);
    if c == '\'' then CharLit(n, w.line, w.pos)
    else if c == '"' then StringLit(n, w.line, w.pos)
    else if c == ';' then Ok(Lexed(Token(Semicolon, ";", w.line, w.pos), n))
    else if c == ',' then Ok(Lexed(Token(Comma, ",", w.line, w.pos), n))
    else if c == '}' then Ok(Lexed(Token(RightBrace, "}", w.line, w.pos), n))
    else if c == '{' then Ok(Lexed(Token(LeftBrace, "{", w.line, w.pos), n))
    else if c == ')' then Ok(Lexed(Token(RightParen, ")", w.line, w.pos), n))
    else if c == '(' then Ok(Lexed(Token(LeftParen, "(", w.line, w.pos), n))
    else if c == '#' then DivOrComment(n)
    else Err(Fatal(w.line, w.pos, "Lexer Incapable of Handling this char unless as string or character"))
  }

  // ---------------------------------------------------------------------------
  // The whole token stream
  // ---------------------------------------------------------------------------

  /** The tokens getToken returns from `st` on, up to and including the first
      End_of_input. */
  function LexFrom(st: LexState): (r: Result<seq<Token>>)
    requires Valid(st)
    ensures r.Ok? ==> |r.value| >= 1 && r.value[|r.value| - 1].kind == EndOfInput
    ensures r.Ok? ==> forall i | 0 <= i < |r.value| - 1 :: r.value[i].kind != EndOfInput && r.value[i].value != ""
    ensures r.Ok? ==> forall i | 0 <= i < |r.value| :: st.line <= r.value[i].line && r.value[i].pos >= 1
    ensures r.Ok? ==> forall i, j | 0 <= i < j < |r.value| :: r.value[i].line <= r.value[j].line
    decreases |st.s| - st.position
  {
    var x :- GetToken(st);
    if x.tok.kind == EndOfInput then Ok([x.tok])
    else
      var more :- LexFrom(x.rest);
      LexCons(x.tok, more, st.line);
      Ok([x.tok] + more)
  }

  /** A token that is not End_of_input, in front of a stream LexFrom
      returned from a later state, keeps the stream's shape. */
  lemma LexCons(t: Token, more: seq<Token>, line: int)
    requires t.kind != EndOfInput && t.value != "" && line <= t.line && t.pos >= 1
    requires |more| >= 1 && more[|more| - 1].kind == EndOfInput
    requires forall i | 0 <= i < |more| - 1 :: more[i].kind != EndOfInput && more[i].value != ""
    requires forall i | 0 <= i < |more| :: t.line <= more[i].line && more[i].pos >= 1
    requires forall i, j | 0 <= i < j < |more| :: more[i].line <= more[j].line
    ensures var r := [t] + more;
      && r[|r| - 1].kind == EndOfInput
      && (forall i | 0 <= i < |r| - 1 :: r[i].kind != EndOfInput && r[i].value != "")
      && (forall i | 0 <= i < |r| :: line <= r[i].line && r[i].pos >= 1)
      && (forall i, j | 0 <= i < j < |r| :: r[i].line <= r[j].line)
  {
    var r := [t] + more;
    assert forall i | 1 <= i < |r| :: r[i] == more[i - 1];
  }

  /** All tokens of a source text. */
  function Lex(source: string): Result<seq<Token>> {
    LexFrom(Init(source))
  }

  /** Token.toString of each token, in order. */
  function TokenTexts(ts: seq<Token>): seq<string> {
    if ts == [] then [] else [TokenText(ts[0])] + TokenTexts(ts[1..])
  }

  /** printTokens from `st` on, with `sb` already in the builder. */
  function PrintFrom(st: LexState, sb: string): Result<string>
    requires Valid(st)
    decreases |st.s| - st.position
  {
    var x :- GetToken(st);
    if x.tok.kind == EndOfInput then Ok(sb + TokenText(x.tok))
    else PrintFrom(x.rest, sb + TokenText(x.tok) + "\n")
  }

  /** printTokens writes one line per token, the End_of_input line last and
      not followed by a newline. */
  lemma {:induction false} PrintFromTokens(st: LexState, sb: string)
    requires Valid(st) && LexFrom(st).Ok?
    ensures PrintFrom(st, sb) == Ok(sb + JoinLines(TokenTexts(LexFrom(st).value)))
    decreases |st.s| - st.position
  {
    var x := GetToken(st).value;
    if x.tok.kind == EndOfInput {
      assert LexFrom(st) == Ok([x.tok]);
      assert TokenTexts([x.tok]) == [TokenText(x.tok)];
    } else {
      var line := TokenText(x.tok);
      var sb' := sb + line + "\n";
      var ts := LexFrom(x.rest).value;
      assert LexFrom(st).value == [x.tok] + ts;
      assert PrintFrom(st, sb) == PrintFrom(x.rest, sb');
      PrintFromTokens(x.rest, sb');
      assert ([x.tok] + ts)[1..] == ts;
      JoinLinesCons(line, TokenTexts(ts));
      AppendLine(sb, line, JoinLines(TokenTexts(ts)));
    }
  }

  lemma AppendLine(sb: string, line: string, tail: string)
    ensures sb + line + "\n" + tail == sb + (line + "\n" + tail)
  {
  }

  /** printTokens fails exactly when reading the tokens fails. */
  lemma {:induction false} PrintFromFails(st: LexState, sb: string)
    requires Valid(st)
    ensures PrintFrom(st, sb).Err? <==> LexFrom(st).Err?
    decreases |st.s| - st.position
  {
    var g := GetToken(st);
    if g.Ok? && g.value.tok.kind != EndOfInput {
      var x := g.value;
      var sb' := sb + TokenText(x.tok) + "\n";
      assert PrintFrom(st, sb) == PrintFrom(x.rest, sb');
      PrintFromFails(x.rest, sb');
      assert LexFrom(st).Err? <==> LexFrom(x.rest).Err?;
    }
  }

  function PrintTokens(source: string): Result<string> {
    PrintFrom(Init(source), "")
  }
}

=== FILE: lexer_props.dfy ===
/** What getToken returns, stated per kind of token against the source text
    rather than against the lexer's own helper calls. Each lemma starts from a
    state whose current character is not whitespace (`AtToken`); `Skipped`
    shows that any other state reads the same token as the first such state
    after it. */
module LexerProps {
  import opened Base
  import opened Text
  import opened Lexer

  /** A state the lexer can read a token from, sitting on a non-blank character. */
  predicate AtToken(st: LexState) {
    Valid(st) && !IsWhitespace(Chr(st))
  }

  /** The five spellings the keyword table holds. */
  const KeywordSpellings: seq<string> := ["if", "else", "print", "putc", "while"]

  /** The characters getToken's switch maps straight to a kind of their own. */
  predicate IsPunctuation(c: char) {
    c == ';' || c == ',' || c == '{' || c == '}' || c == '(' || c == ')'
  }

  /** The operator characters that are never the start of a longer token
      (`/` only when no comment follows). */
  predicate IsSingleOperator(c: char) {
    c == '*' || c == '%' || c == '+' || c == '/'
  }

  /** The operator characters that take an optional `=` after them. */
  predicate IsComparison(c: char) {
    c == '<' || c == '>' || c == '=' || c == '!'
  }

  /** `end` is where the run of `cls` characters starting at `start` stops. */
  predicate RunEnds(s: string, start: int, end: int, cls: CharClass) {
    && 0 <= start <= end < |s|
    && (forall i | start <= i < end :: InClass(cls, s[i]))
    && !InClass(cls, s[end])
  }

  /** The state getNextChar leaves `k - st.position` reads later, with no
      newline stepped over. */
  function Advance(st: LexState, k: int): LexState {
    st.(pos := st.pos + (k - st.position), position := k)
  }

  /** A scan stops exactly where the run ends. */
  lemma ScanStops(st: LexState, cls: CharClass, track: bool, end: int)
    requires Valid(st) && RunEnds(st.s, st.position, end, cls)
    ensures Scan(st, cls, track).position == end
    ensures !track ==> Scan(st, cls, track) == Advance(st, end)
  {
    ScanRun(st, cls, track);
    if !track {
      ScanFlat(st, cls);
    }
  }

  // The branch getToken takes on each class of character.

  lemma OperatorChar(c: char)
    requires IsOperator(c)
    ensures !IsWhitespace(c) && !IsAlpha(c) && !IsDigit(c) && c != '_' && c != Sentinel
  {
  }

  lemma PunctuationChar(c: char)
    requires IsPunctuation(c) || c == '\'' || c == '"' || c == '#'
    ensures !IsWhitespace(c) && !IsAlpha(c) && !IsDigit(c) && c != '_' && c != Sentinel && !IsOperator(c)
  {
  }

  lemma DispatchIdentifier(st: LexState)
    requires AtToken(st) && (IsAlpha(Chr(st)) || Chr(st) == '_')
    ensures GetToken(st) == Ok(IdentifierOrKeyword(st))
  {
    assert SkipWhitespace(st) == st;
  }

  lemma DispatchDigit(st: LexState)
    requires AtToken(st) && IsDigit(Chr(st))
    ensures GetToken(st) == CharLit(st, st.line, st.pos)
  {
    assert SkipWhitespace(st) == st;
  }

  lemma DispatchOperator(st: LexState)
    requires AtToken(st) && IsOperator(Chr(st))
    ensures GetToken(st) == Operator(st)
  {
    OperatorChar(Chr(st));
    assert SkipWhitespace(st) == st;
  }

  lemma DispatchPunctuation(st: LexState)
    requires AtToken(st) && Chr(st) != Sentinel
    requires !IsAlpha(Chr(st)) && Chr(st) != '_' && !IsDigit(Chr(st)) && !IsOperator(Chr(st))
    ensures GetToken(st) == Punctuation(st)
  {
    assert SkipWhitespace(st) == st;
  }

  // The branches of the final switch of getToken, of operator and of
  // div_or_comment, one at a time.

  lemma QuoteBranch(st: LexState)
    requires AtToken(st) && Chr(st) == '\''
    ensures GetToken(st) == CharLit(Step(st), st.line, st.pos)
  {
    PunctuationChar(Chr(st));
    DispatchPunctuation(st);
  }

  lemma DoubleQuoteBranch(st: LexState)
    requires AtToken(st) && Chr(st) == '"'
    ensures GetToken(st) == StringLit(Step(st), st.line, st.pos)
  {
    PunctuationChar(Chr(st));
    DispatchPunctuation(st);
  }

  lemma FollowBranch(st: LexState)
    requires AtToken(st) && (IsComparison(Chr(st)) || Chr(st) == '&' || Chr(st) == '|')
    ensures GetToken(st) == Follow(st, if IsComparison(Chr(st)) then '=' else Chr(st),
      match Chr(st)
      case '<' => OpLessEqual case '>' => OpGreaterEqual case '=' => OpEqual
      case '!' => OpNotEqual case '&' => OpAnd case _ => OpOr,
      match Chr(st)
      case '<' => OpLess case '>' => OpGreater case '=' => OpAssign
      case '!' => OpNot case _ => EndOfInput,
      st.line, st.pos)
  {
    DispatchOperator(st);
  }

  // ---------------------------------------------------------------------------
  // Whitespace and end of input
  // ---------------------------------------------------------------------------

  /** Whitespace is skipped before every token: reading from `st` is reading
      from the first non-blank character at or after it. */
  lemma Skipped(st: LexState)
    requires Valid(st)
    ensures AtToken(SkipWhitespace(st))
    ensures GetToken(st) == GetToken(SkipWhitespace(st))
  {
    var w := SkipWhitespace(st);
    assert SkipWhitespace(w) == w;
  }

  /** When only whitespace is left, the token is End_of_input with empty text,
      at the sentinel, on the line after the last newline skipped. */
  lemma EndOfInputAtBlankRest(st: LexState)
    requires Valid(st)
    requires forall i | st.position <= i < |st.s| - 1 :: IsWhitespace(st.s[i])
    ensures GetToken(st).Ok?
    ensures var x := GetToken(st).value;
      && x.tok.kind == EndOfInput && x.tok.value == ""
      && x.rest.position == |st.s| - 1
      && x.tok.line == st.line + CountOf('\n', st.s[st.position..|st.s| - 1])
  {
    var w := SkipWhitespace(st);
    ScanLines(st, Whitespace);
    assert w.position == |st.s| - 1;
  }

  /** A source made of whitespace alone lexes to the single End_of_input
      token, on the line after its last newline. */
  lemma LexOfBlank(source: string)
    requires forall i | 0 <= i < |source| :: IsWhitespace(source[i])
    ensures Lex(source).Ok? && |Lex(source).value| == 1
    ensures Lex(source).value[0].kind == EndOfInput
    ensures Lex(source).value[0].line == 1 + CountOf('\n', source)
  {
    var st := Init(source);
    assert st.s[0..|st.s| - 1] == source;
    EndOfInputAtBlankRest(st);
  }

  // ---------------------------------------------------------------------------
  // Identifiers, keywords, digit runs and character literals
  // ---------------------------------------------------------------------------

  /** The keyword table gives a keyword kind exactly to the five keyword
      spellings, and that kind is named after the spelling. */
  lemma KeywordLookup(text: string)
    ensures KeywordOrIdentifier(text) != Identifier <==> text in KeywordSpellings
    ensures KeywordOrIdentifier(text) != Identifier ==> Name(KeywordOrIdentifier(text)) == "Keyword_" + text
  {
  }

  /** A token starting with a letter or `_` is the maximal run of letters,
      digits and `_`; it is a keyword exactly when it spells one. */
  lemma IdentifierToken(st: LexState, end: int)
    requires AtToken(st) && (IsAlpha(Chr(st)) || Chr(st) == '_')
    requires RunEnds(st.s, st.position, end, IdentChars)
    ensures GetToken(st).Ok?
    ensures var x := GetToken(st).value; var word := st.s[st.position..end];
      && x.tok.value == word && x.tok.line == st.line && x.tok.pos == st.pos
      && (x.tok.kind == Identifier <==> word !in KeywordSpellings)
      && (x.tok.kind != Identifier ==> Name(x.tok.kind) == "Keyword_" + word)
      && x.rest == Advance(st, end)
  {
    DispatchIdentifier(st);
    ScanStops(st, IdentChars, false, end);
    KeywordLookup(st.s[st.position..end]);
  }

  /** A token starting with a digit is an Integer holding the maximal run of
      digits. */
  lemma DigitToken(st: LexState, end: int)
    requires AtToken(st) && IsDigit(Chr(st))
    requires RunEnds(st.s, st.position, end, Digits)
    ensures GetToken(st) == Ok(Lexed(Token(Integer, st.s[st.position..end], st.line, st.pos), Advance(st, end)))
  {
    DispatchDigit(st);
    ScanStops(st, Digits, false, end);
  }

  /** A quoted character other than a digit is an Integer whose text is that
      character, provided the next character closes the quote; otherwise the
      read fails, fatally when there is a character to complain about. */
  lemma QuotedCharToken(st: LexState)
    requires AtToken(st) && Chr(st) == '\'' && !IsDigit(st.s[st.position + 1])
    ensures var r := GetToken(st);
      r.Ok? <==> st.position + 2 < |st.s| && st.s[st.position + 2] == '\''
    ensures var r := GetToken(st);
      r.Ok? ==> r.value == Lexed(Token(Integer, [st.s[st.position + 1]], st.line, st.pos), Advance(st, st.position + 3))
    ensures var r := GetToken(st);
      r.Err? && st.position + 2 < |st.s| ==> r.error.Fatal? && r.error.line == st.line && r.error.pos == st.pos
  {
    QuoteBranch(st);
  }

  /** A quoted digit is read as a digit run; the closing quote is left for
      the next token. */
  lemma QuotedDigitToken(st: LexState, end: int)
    requires AtToken(st) && Chr(st) == '\''
    requires RunEnds(st.s, st.position + 1, end, Digits) && end > st.position + 1
    ensures GetToken(st) == Ok(Lexed(Token(Integer, st.s[st.position + 1..end], st.line, st.pos), Advance(st, end)))
  {
    QuoteBranch(st);
    QuotedDigitLit(st, end);
  }

  lemma QuotedDigitLit(st: LexState, end: int)
    requires Valid(st) && st.position + 1 < |st.s| && IsDigit(st.s[st.position + 1])
    requires RunEnds(st.s, st.position + 1, end, Digits)
    ensures CharLit(Step(st), st.line, st.pos)
      == Ok(Lexed(Token(Integer, st.s[st.position + 1..end], st.line, st.pos), Advance(st, end)))
  {
    DigitRunLit(Step(st), st.line, st.pos, end);
    AdvanceStep(st, end);
  }

  lemma AdvanceStep(st: LexState, k: int)
    requires -1 <= st.position && st.position + 1 < |st.s|
    ensures Advance(Step(st), k) == Advance(st, k)
  {
  }

  /** char_lit on a digit reads the digit run, wherever it was entered from. */
  lemma DigitRunLit(st: LexState, line: int, pos: int, end: int)
    requires Valid(st) && IsDigit(Chr(st))
    requires RunEnds(st.s, st.position, end, Digits)
    ensures CharLit(st, line, pos) == Ok(Lexed(Token(Integer, st.s[st.position..end], line, pos), Advance(st, end)))
  {
    ScanStops(st, Digits, false, end);
  }

  // ---------------------------------------------------------------------------
  // String literals
  // ---------------------------------------------------------------------------

  /** No `"` at any index in [start, end). */
  predicate NoQuote(s: string, start: int, end: int) {
    forall i | start <= i < end && 0 <= i < |s| :: s[i] != '"'
  }

  /** The loop of string_lit stops at the first `"` after its start. */
  lemma {:induction false} QuoteFound(st: LexState, close: int)
    requires Valid(st) && st.position < close < |st.s| && st.s[close] == '"'
    requires NoQuote(st.s, st.position + 1, close)
    ensures ReadUntilQuote(st) == Ok((st.s[st.position + 1..close], Advance(st, close)))
    decreases close - st.position
  {
    var n := Step(st);
    assert NextChar(st) == Ok(n);
    if n.position < close {
      assert Chr(n) != '"';
      QuoteFound(n, close);
      var rest := st.s[n.position + 1..close];
      assert ReadUntilQuote(n) == Ok((rest, Advance(n, close)));
      assert ReadUntilQuote(st) == Ok(([Chr(n)] + rest, Advance(n, close)));
      SliceCons(st.s, n.position, close);
      assert [Chr(n)] + rest == st.s[st.position + 1..close];
      assert Advance(n, close) == Advance(st, close);
    } else {
      assert Chr(n) == '"';
      assert ReadUntilQuote(st) == Ok(("", n));
      assert n == Advance(st, close);
      assert st.s[st.position + 1..close] == "";
    }
  }

  /** With no `"` after its start, the loop of string_lit runs past the
      sentinel. */
  lemma {:induction false} QuoteMissing(st: LexState)
    requires Valid(st) && NoQuote(st.s, st.position + 1, |st.s|)
    ensures ReadUntilQuote(st) == Err(IndexOutOfBounds(|st.s|))
    decreases |st.s| - st.position
  {
    if st.position + 1 < |st.s| {
      QuoteMissing(Step(st));
    }
  }

  /** string_lit's result in terms of its loop's. */
  lemma StringLitShape(n: LexState, line: int, pos: int)
    requires Valid(n) && ReadUntilQuote(n).Ok?
    ensures StringLit(n, line, pos)
      == Ok(Lexed(Token(String, [Chr(n)] + ReadUntilQuote(n).value.0, line, pos), Step(ReadUntilQuote(n).value.1)))
  {
  }

  lemma StringLitFound(st: LexState, close: int)
    requires Valid(st) && Chr(st) == '"'
    requires st.position + 1 < close < |st.s| && st.s[close] == '"'
    requires NoQuote(st.s, st.position + 2, close)
    ensures StringLit(Step(st), st.line, st.pos)
      == Ok(Lexed(Token(String, st.s[st.position + 1..close], st.line, st.pos), Advance(st, close + 1)))
  {
    var n := Step(st);
    QuoteFound(n, close);
    StringLitShape(n, st.line, st.pos);
    SliceCons(st.s, st.position + 1, close);
    assert Step(Advance(n, close)) == Advance(st, close + 1);
  }

  /** A string literal is a String token holding the character after the
      opening quote, whatever it is, and everything from there up to the next
      `"`, with no escapes; reading resumes after that closing quote. So the
      empty literal `""` is not an empty string: its second quote is taken
      as text and the literal runs on to the next `"`. */
  lemma StringToken(st: LexState, close: int)
    requires AtToken(st) && Chr(st) == '"'
    requires st.position + 1 < close < |st.s| && st.s[close] == '"'
    requires NoQuote(st.s, st.position + 2, close)
    ensures GetToken(st) == Ok(Lexed(Token(String, st.s[st.position + 1..close], st.line, st.pos), Advance(st, close + 1)))
  {
    DoubleQuoteBranch(st);
    StringLitFound(st, close);
  }

  /** With no `"` after the character following the opening quote, reading
      runs past the sentinel. */
  lemma UnterminatedString(st: LexState)
    requires AtToken(st) && Chr(st) == '"'
    requires NoQuote(st.s, st.position + 2, |st.s|)
    ensures GetToken(st) == Err(IndexOutOfBounds(|st.s|))
  {
    DoubleQuoteBranch(st);
    QuoteMissing(Step(st));
  }

  // ---------------------------------------------------------------------------
  // Operators
  // ---------------------------------------------------------------------------

  /** After `-` the whitespace is skipped, counting its newlines; the token
      is Op_negate when a digit comes next and Op_subtract otherwise, with
      text `-` at the position of the `-`. */
  lemma MinusToken(st: LexState, next: int)
    requires AtToken(st) && Chr(st) == '-'
    requires RunEnds(st.s, st.position + 1, next, Whitespace)
    ensures GetToken(st).Ok?
    ensures var x := GetToken(st).value;
      && x.tok == Token(if IsDigit(st.s[next]) then OpNegate else OpSubtract, "-", st.line, st.pos)
      && x.rest.position == next
      && x.rest.line == st.line + CountOf('\n', st.s[st.position + 1..next])
  {
    DispatchOperator(st);
    MinusOperator(st);
    MinusSkips(st, next);
  }

  lemma MinusOperator(st: LexState)
    requires Valid(st) && Chr(st) == '-'
    ensures var w := SkipWhitespace(Step(st));
      Operator(st) == Ok(Lexed(Token(if IsDigit(Chr(w)) then OpNegate else OpSubtract, "-", st.line, st.pos), w))
  {
  }

  lemma MinusSkips(st: LexState, next: int)
    requires Valid(st) && Chr(st) == '-'
    requires RunEnds(st.s, st.position + 1, next, Whitespace)
    ensures SkipWhitespace(Step(st)).position == next
    ensures SkipWhitespace(Step(st)).line == st.line + CountOf('\n', st.s[st.position + 1..next])
  {
    ScanStops(Step(st), Whitespace, true, next);
    ScanLines(Step(st), Whitespace);
  }

  /** The kinds of the one-character operators `*`, `%`, `+` and `/`. */
  function SingleKind(c: char): TokenType
    requires IsSingleOperator(c)
  {
    match c
    case '*' => OpMultiply
    case '%' => OpMod
    case '+' => OpAdd
    case _ => OpDivide
  }

  /** `*`, `%`, `+`, and `/` not starting a comment, are one-character tokens. */
  lemma SingleOperatorToken(st: LexState)
    requires AtToken(st) && IsSingleOperator(Chr(st))
    requires Chr(st) == '/' ==> st.s[st.position + 1] != '/' && st.s[st.position + 1] != '*'
    ensures GetToken(st) == Ok(Lexed(Token(SingleKind(Chr(st)), [Chr(st)], st.line, st.pos), Advance(st, st.position + 1)))
  {
    DispatchOperator(st);
    SingleOperatorLit(st);
  }

  lemma SingleOperatorLit(st: LexState)
    requires Valid(st) && IsSingleOperator(Chr(st))
    requires Chr(st) == '/' ==> st.s[st.position + 1] != '/' && st.s[st.position + 1] != '*'
    ensures IsOperator(Chr(st))
    ensures Operator(st) == Ok(Lexed(Token(SingleKind(Chr(st)), [Chr(st)], st.line, st.pos), Advance(st, st.position + 1)))
  {
    StepIsAdvance(st);
    var c := Chr(st);
    if c == '/' {
      assert Chr(Step(st)) != '*' && Chr(Step(st)) != '/';
    }
  }

  /** One getNextChar over a character other than a newline. */
  lemma StepIsAdvance(st: LexState)
    requires -1 <= st.position && st.position + 1 < |st.s|
    ensures Step(st) == Advance(st, st.position + 1)
  {
  }

  /** The kinds `<`, `>`, `=` and `!` take alone and followed by `=`. */
  function ComparisonKind(c: char, withEqual: bool): TokenType
    requires IsComparison(c)
  {
    match c
    case '<' => if withEqual then OpLessEqual else OpLess
    case '>' => if withEqual then OpGreaterEqual else OpGreater
    case '=' => if withEqual then OpEqual else OpAssign
    case _ => if withEqual then OpNotEqual else OpNot
  }

  /** `<`, `>`, `=` and `!` give the two-character kind exactly when `=`
      follows; the text is the character after the token followed by `=`. */
  lemma ComparisonToken(st: LexState)
    requires AtToken(st) && IsComparison(Chr(st))
    ensures GetToken(st).Ok?
    ensures var x := GetToken(st).value; var two := st.s[st.position + 1] == '=';
      && x.tok.kind == ComparisonKind(Chr(st), two)
      && x.tok.line == st.line && x.tok.pos == st.pos
      && x.rest == Advance(st, st.position + (if two then 2 else 1))
      && x.tok.value == [Chr(x.rest), '=']
  {
    FollowBranch(st);
  }

  /** `&&` and `||` are Op_and and Op_or; a lone `&` or `|` is fatal. */
  lemma LogicalToken(st: LexState)
    requires AtToken(st) && (Chr(st) == '&' || Chr(st) == '|')
    ensures GetToken(st).Ok? <==> st.s[st.position + 1] == Chr(st)
    ensures var r := GetToken(st);
      r.Ok? ==>
        && r.value.tok.kind == (if Chr(st) == '&' then OpAnd else OpOr)
        && r.value.tok.line == st.line && r.value.tok.pos == st.pos
        && r.value.rest == Advance(st, st.position + 2)
        && r.value.tok.value == [Chr(r.value.rest), Chr(st)]
    ensures var r := GetToken(st);
      r.Err? ==> r.error == Fatal(st.line, st.pos, UnrecognizedMessage(st.s[st.position + 1]))
  {
    var yes := if Chr(st) == '&' then OpAnd else OpOr;
    LogicalBranch(st, yes);
    FollowPair(st, yes, st.line, st.pos);
  }

  /** follow on `&` or `|`, read on its own: the pair or a fatal error. */
  lemma FollowPair(st: LexState, yes: TokenType, line: int, pos: int)
    requires Valid(st) && (Chr(st) == '&' || Chr(st) == '|')
    ensures var r := Follow(st, Chr(st), yes, EndOfInput, line, pos);
      && (r.Ok? <==> st.s[st.position + 1] == Chr(st))
      && (r.Ok? ==>
        && r.value.tok.kind == yes && r.value.tok.line == line && r.value.tok.pos == pos
        && r.value.rest == Advance(st, st.position + 2)
        && r.value.tok.value == [Chr(r.value.rest), Chr(st)])
      && (r.Err? ==> r.error == Fatal(line, pos, UnrecognizedMessage(st.s[st.position + 1])))
  {
    FollowValue(st, Chr(st), yes, EndOfInput, line, pos);
  }

  lemma LogicalBranch(st: LexState, yes: TokenType)
    requires AtToken(st) && (Chr(st) == '&' || Chr(st) == '|')
    requires yes == if Chr(st) == '&' then OpAnd else OpOr
    ensures GetToken(st) == Follow(st, Chr(st), yes, EndOfInput, st.line, st.pos)
  {
    FollowBranch(st);
  }

  /** follow's text is the character after the token, then the expected one. */
  lemma FollowValue(st: LexState, second: char, ifYes: TokenType, ifNo: TokenType, line: int, pos: int)
    requires Valid(st) && Chr(st) != Sentinel && second != Sentinel
    ensures var r := Follow(st, second, ifYes, ifNo, line, pos);
      r.Ok? ==> r.value.tok.value == [Chr(r.value.rest), second]
  {
  }

  // ---------------------------------------------------------------------------
  // Punctuation and everything else
  // ---------------------------------------------------------------------------

  function PunctuationKind(c: char): TokenType
    requires IsPunctuation(c)
  {
    match c
    case ';' => Semicolon
    case ',' => Comma
    case '{' => LeftBrace
    case '}' => RightBrace
    case '(' => LeftParen
    case _ => RightParen
  }

  /** `; , { } ( )` map one to one to their kinds. */
  lemma PunctuationToken(st: LexState)
    requires AtToken(st) && IsPunctuation(Chr(st))
    ensures GetToken(st) == Ok(Lexed(Token(PunctuationKind(Chr(st)), [Chr(st)], st.line, st.pos), Advance(st, st.position + 1)))
  {
    var c := Chr(st);
    PunctuationChar(c);
    DispatchPunctuation(st);
    assert Advance(st, st.position + 1) == Step(st);
    if c == ';' {
      assert [c] == ";";
    } else if c == ',' {
      assert [c] == ",";
    } else if c == '{' {
      assert [c] == "{";
    } else if c == '}' {
      assert [c] == "}";
    } else if c == '(' {
      assert [c] == "(";
    } else {
      assert [c] == ")";
    }
  }

  /** A character no class handles is fatal at its own position. */
  lemma UnhandledCharacter(st: LexState)
    requires AtToken(st) && Chr(st) != Sentinel
    requires !InClass(IdentChars, Chr(st)) && !IsOperator(Chr(st)) && !IsPunctuation(Chr(st)) && Chr(st) != '\'' && Chr(st) != '"' && Chr(st) != '#'
    ensures GetToken(st) == Err(Fatal(st.line, st.pos, "Lexer Incapable of Handling this char unless as string or character"))
  {
    DispatchPunctuation(st);
  }

  // ---------------------------------------------------------------------------
  // Comments
  // ---------------------------------------------------------------------------

  /** `/` followed by `/` or `*` goes to div_or_comment, entered on that
      second character. */
  lemma SlashBranch(st: LexState)
    requires AtToken(st) && Chr(st) == '/'
    requires st.s[st.position + 1] == '/' || st.s[st.position + 1] == '*'
    ensures GetToken(st) == DivOrComment(Step(st))
  {
    DispatchOperator(st);
  }

  /** `#` goes to div_or_comment, entered on the character after it. */
  lemma HashBranch(st: LexState)
    requires AtToken(st) && Chr(st) == '#'
    ensures GetToken(st) == DivOrComment(Step(st))
  {
    PunctuationChar(Chr(st));
    DispatchPunctuation(st);
  }

  /** On a second `/`, div_or_comment skips the rest of the line and reads
      the next token from there. */
  lemma LineCommentBranch(n: LexState)
    requires Valid(n) && Chr(n) == '/'
    ensures DivOrComment(n) == GetToken(SkipLineComment(n))
  {
  }

  /** The line comment stops on the newline or sentinel ending the line,
      without stepping over it, and counts one line up front. */
  lemma LineCommentEnds(n: LexState, end: int)
    requires Valid(n) && RunEnds(n.s, n.position, end, LineBody)
    ensures SkipLineComment(n) == Advance(n, end).(line := n.line + 1)
  {
    ScanStops(n.(line := n.line + 1), LineBody, false, end);
  }

  /** On `*`, div_or_comment skips the block comment and reads the next
      token after it, failing when the comment runs past the sentinel. */
  lemma BlockCommentBranch(n: LexState)
    requires Valid(n) && Chr(n) == '*'
    ensures DivOrComment(n) == match SkipBlockComment(n) case Ok(m) => GetToken(m) case Err(e) => Err(e)
  {
  }

  /** The block comment ends two characters after the first `*`, `/` or
      sentinel following the `*` that opened it: any `*` or `/` and the one
      character after it close it, whatever that character is. Its newlines
      are counted. The two reads fail when they run past the sentinel. */
  lemma BlockCommentEnds(n: LexState, stop: int)
    requires Valid(n) && Chr(n) == '*' && RunEnds(n.s, n.position + 1, stop, BlockBody)
    ensures SkipBlockComment(n).Ok? <==> stop + 2 < |n.s|
    ensures SkipBlockComment(n).Ok? ==> SkipBlockComment(n).value.position == stop + 2
    ensures SkipBlockComment(n).Ok? ==>
      SkipBlockComment(n).value.line == n.line + CountOf('\n', n.s[n.position + 1..stop])
  {
    ScanStops(Step(n), BlockBody, true, stop);
    ScanLines(Step(n), BlockBody);
  }

  /** After a `#`, any character but `/` and `*` is read as the start of the
      next token: the `#` is dropped. */
  lemma NoCommentBranch(n: LexState)
    requires Valid(n) && Chr(n) != '/' && Chr(n) != '*'
    ensures DivOrComment(n) == GetToken(n)
  {
  }

  /** A `#` not followed by `/` or `*` is not a token and not a comment:
      the lexer reads on as if it were not there, so whatever follows it,
      whitespace included, gives the same token it would give alone. */
  lemma HashDiscarded(st: LexState)
    requires AtToken(st) && Chr(st) == '#'
    requires st.s[st.position + 1] != '/' && st.s[st.position + 1] != '*'
    ensures GetToken(st) == GetToken(Step(st))
  {
    HashBranch(st);
    NoCommentAfterHash(st);
  }

  lemma NoCommentAfterHash(st: LexState)
    requires AtToken(st) && Chr(st) == '#'
    requires st.s[st.position + 1] != '/' && st.s[st.position + 1] != '*'
    ensures DivOrComment(Step(st)) == GetToken(Step(st))
  {
    NoCommentBranch(Step(st));
  }
}

=== FILE: parser.dfy ===
/** The recursive-descent parser of Parser.java, as written.

    The parser object's mutable fields `currentToken`, `prevToken` and
    `position` become an immutable `Cursor`; the token list `source` never
    changes and is passed alongside. Each Java method becomes a function from
    a cursor to its result and the cursor after it, or to the error that ends
    the run: an `error(...)` call, or a `List.get` past the end of the list. */
module Parser {
  import opened Base
  import opened ParserTypes
  import opened Ast

  /** `currentToken`, `prevToken` (both `null` at first) and `position`, the
      index of the next token to read. */
  datatype Cursor = Cursor(current: Option<Token>, prev: Option<Token>, position: nat)

  /** The cursor of a freshly constructed Parser. */
  const Start := Cursor(None, None, 0)

  /** Whether a cursor reflects the list: the current token is the last one
      read and the previous token the one before it, both absent until read. */
  predicate InSync(source: seq<Token>, c: Cursor) {
    && c.position <= |source|
    && c.current == (if c.position == 0 then None else Some(source[c.position - 1]))
    && c.prev == (if c.position <= 1 then None else Some(source[c.position - 2]))
  }

  /** Whether a parse outcome leaves a cursor in sync with the list. */
  predicate Synced(source: seq<Token>, r: Result<(Tree, Cursor)>) {
    r.Ok? ==> InSync(source, r.value.1)
  }

  // ---------------------------------------------------------------------------
  // Reading tokens
  // ---------------------------------------------------------------------------

  /** nextToken: the current token becomes the previous one and the token at
      `position` the current one; past the end of the list, `get` throws. */
  function NextToken(source: seq<Token>, c: Cursor): (r: Result<Cursor>)
    ensures r.Ok? <==> c.position < |source|
    ensures r.Ok? ==> r.value == Cursor(Some(source[c.position]), c.current, c.position + 1)
    ensures r.Err? ==> r.error == IndexOutOfBounds(c.position)
    ensures r.Ok? && InSync(source, c) ==> InSync(source, r.value)
  {
    if c.position < |source| then Ok(Cursor(Some(source[c.position]), c.current, c.position + 1))
    else Err(IndexOutOfBounds(c.position))
  }

  /** nextTokenType: the kind of the token `nextToken` would read, without
      reading it. */
  function NextTokenType(source: seq<Token>, c: Cursor): (r: Result<TokenType>)
    ensures r.Ok? <==> NextToken(source, c).Ok?
    ensures r.Ok? ==> r.value == NextToken(source, c).value.current.value.kind
  {
    if c.position < |source| then Ok(source[c.position].kind) else Err(IndexOutOfBounds(c.position))
  }

  /** The message of a failed expect. */
  function ExpectMessage(msg: string, expected: TokenType, found: TokenType): string {
    msg + ": Expecting '" + Name(expected) + "', found: '" + Name(found) + "'"
  }

  /** The message statementParse and expressionParse stop with. */
  function UnexpectedMessage(found: TokenType): string {
    "Unexpected " + Name(found) + " found "
  }

  /** expect(msg, type): reads past the current token if it has the expected
      kind, and stops with an error at that token otherwise. */
  function Expect(source: seq<Token>, c: Cursor, msg: string, kind: TokenType): (r: Result<Cursor>)
    ensures r.Ok? <==> c.current.Some? && c.current.value.kind == kind && c.position < |source|
    ensures r.Ok? ==> r.value.position == c.position + 1 && r.value.prev == c.current
    ensures r.Ok? && InSync(source, c) ==> InSync(source, r.value)
    ensures c.current.Some? && c.current.value.kind != kind ==>
      r == Err(Fatal(c.current.value.line, c.current.value.pos, ExpectMessage(msg, kind, c.current.value.kind)))
  {
    if c.current.None? then Err(NullReference)
    else
      var t := c.current.value;
      if t.kind == kind then NextToken(source, c)
      else Err(Fatal(t.line, t.pos, ExpectMessage(msg, kind, t.kind)))
  }

  /** expect(msg, token, type): the same check on a given token, which is not
      consumed. */
  function ExpectToken(token: Option<Token>, msg: string, kind: TokenType): (r: Result<bool>)
    ensures r.Ok? <==> token.Some? && token.value.kind == kind
    ensures r.Ok? ==> r.value
    ensures token.Some? && token.value.kind != kind ==>
      r == Err(Fatal(token.value.line, token.value.pos, ExpectMessage(msg, kind, token.value.kind)))
  {
    if token.None? then Err(NullReference)
    else if token.value.kind == kind then Ok(true)
    else Err(Fatal(token.value.line, token.value.pos, ExpectMessage(msg, kind, token.value.kind)))
  }

  /** softCheck: whether a token has a kind, without stopping. */
  function SoftCheck(token: Option<Token>, kind: TokenType): (r: Result<bool>)
    ensures r.Ok? <==> token.Some?
    ensures r.Ok? ==> (r.value <==> ExpectToken(token, "", kind).Ok?)
  {
    if token.None? then Err(NullReference) else Ok(token.value.kind == kind)
  }

  /** opCheck: whether the next token, not yet read, is one of the fifteen
      operations. */
  function OpCheck(source: seq<Token>, c: Cursor): (r: Result<bool>)
    ensures r.Ok? <==> NextToken(source, c).Ok?
  {
    var k :- NextTokenType(source, c);
    Ok(IsOperation(k))
  }

  // ---------------------------------------------------------------------------
  // The recursive descent
  // ---------------------------------------------------------------------------

  /** A parse function's outcome: the subtree and the cursor after it. */
  type Parsed = Result<(Tree, Cursor)>

  /** Whether a parse outcome left the cursor where it was or further on. */
  predicate NoRetreat(c: Cursor, r: Parsed) {
    r.Ok? ==> c.position <= r.value.1.position
  }

  /** Whether a parse outcome read at least one token. */
  predicate Consumed(c: Cursor, r: Parsed) {
    r.Ok? ==> c.position < r.value.1.position
  }

  /** parentheticalExpression: `(`, an expression, `)`. */
  function ParentheticalExpression(source: seq<Token>, c: Cursor): (r: Parsed)
    ensures Consumed(c, r)
    ensures InSync(source, c) ==> Synced(source, r)
    decreases |source| - c.position, 0
  {
    var c1 :- Expect(source, c, "paren_expr", LeftParen);
    var (node, c2) :- ExpressionParse(source, c1);
    var c3 :- Expect(source, c2, "paren_expr", RightParen);
    Ok((node, c3))
  }

  /** braceStatement: a left brace, one statement, and a second left brace
      where a right brace is meant. */
  function BraceStatement(source: seq<Token>, c: Cursor): (r: Parsed)
    ensures Consumed(c, r)
    ensures InSync(source, c) ==> Synced(source, r)
    decreases |source| - c.position, 0
  {
    var c1 :- Expect(source, c, "brace_statement", LeftBrace);
    var (node, c2) :- StatementParse(source, c1);
    var c3 :- Expect(source, c2, "brace_statement", LeftBrace);
    Ok((node, c3))
  }

  /** assignmentParse: reads the `=`, then demands that the previous token
      be an identifier. After the read the previous token is the `=` itself,
      so the demand always fails and the assignment node the Java code goes
      on to build (with the expression after the `=` on its right) is never
      reached. */
  function AssignmentParse(source: seq<Token>, c: Cursor): (r: Parsed)
    ensures r.Err?
    decreases |source| - c.position, 0
  {
    var c1 :- Expect(source, c, "Error with expected assignment", OpAssign);
    match ExpectToken(c1.prev, "Error with expected assignment", Identifier)
    case Err(e) => Err(e)
    case Ok(_) => assert false; Err(NullReference)
  }

  /** expressionParse: a parenthesised expression or an operand, either of
      them followed by one of the fifteen operations and the expression
      parsed from the operation token itself; no precedence. */
  function ExpressionParse(source: seq<Token>, c: Cursor): (r: Parsed)
    ensures NoRetreat(c, r)
    ensures InSync(source, c) ==> Synced(source, r)
    decreases |source| - c.position, 1
  {
    if c.current.None? then Err(NullReference)
    else
      var t := c.current.value;
      match t.kind
      case LeftParen =>
        var (node, c1) :- ParentheticalExpression(source, c);
        var isOp :- OpCheck(source, c1);
        if isOp then
          // opCheck succeeded, so there is a token to read
          var c2 := NextToken(source, c1).value;
          var op := c2.current.value;
          var (right, c3) :- ExpressionParse(source, c2);
          Ok((MakeNode(Some(op), TypeMap(op.kind), node, right), c3))
        else Ok((node, c1))
      case Identifier | Integer | String =>
        var isOp :- OpCheck(source, c);
        if isOp then
          // prevToken is `t`, the operand just read
          var c1 := NextToken(source, c).value;
          var op := c1.current.value;
          var (right, c2) :- ExpressionParse(source, c1);
          Ok((MakeNode(Some(op), TypeMap(op.kind), Leaf(Some(t), TypeMap(t.kind)), right), c2))
        else
          var c1 := NextToken(source, c).value;
          Ok((Leaf(Some(t), TypeMap(t.kind)), c1))
      case OpAssign =>
        // assignmentParse never returns, so the fall-through to the error
        // below it in the switch is never reached
        AssignmentParse(source, c)
      case EndOfInput | RightParen | RightBrace | Semicolon | Comma
        | KeywordIf | KeywordElse | KeywordPrint | KeywordPutc | KeywordWhile =>
        Err(Fatal(t.line, t.pos, UnexpectedMessage(t.kind)))
      case _ =>
        // LeftBrace and the fifteen operations: no case of the switch
        Ok((Nil, c))
  }

  /** statementParse: a keyword with the expression after it, a braced
      statement, a parenthesised expression, an identifier followed by an
      expression, or nothing at `;`, `,` and `}`. */
  function StatementParse(source: seq<Token>, c: Cursor): (r: Parsed)
    ensures NoRetreat(c, r)
    ensures InSync(source, c) ==> Synced(source, r)
    decreases |source| - c.position, 2
  {
    if c.current.None? then Err(NullReference)
    else
      var t := c.current.value;
      match t.kind
      case KeywordElse | KeywordIf | KeywordPrint | KeywordPutc | KeywordWhile =>
        // prevToken is `t`, the keyword just read
        var c1 :- NextToken(source, c);
        var (e, c2) :- ExpressionParse(source, c1);
        Ok((MakeNode(Some(t), TypeMap(t.kind), e, Nil), c2))
      case LeftBrace => BraceStatement(source, c)
      case LeftParen => ParentheticalExpression(source, c)
      case Identifier =>
        var c1 :- NextToken(source, c);
        ExpressionParse(source, c1)
      case Semicolon | Comma | RightBrace => Ok((Nil, c))
      case _ => Err(Fatal(t.line, t.pos, UnexpectedMessage(t.kind)))
  }

  /** One round of parse's loop: a statement, then the token after it. */
  function Round(source: seq<Token>, c: Cursor): (r: Parsed)
    ensures Consumed(c, r)
    ensures InSync(source, c) ==> Synced(source, r)
  {
    var (stmt, c1) :- StatementParse(source, c);
    var c2 :- NextToken(source, c1);
    Ok((stmt, c2))
  }

  /** The loop of parse: statements chained into `Sequence` nodes, each new
      node holding the chain so far on its left and the statement on its
      right, until the current token is the end of input. */
  function ParseLoop(source: seq<Token>, node: Tree, c: Cursor): Result<Tree>
    decreases |source| - c.position
  {
    if c.current.None? then Err(NullReference)
    else if c.current.value.kind == EndOfInput then Ok(node)
    else
      var (stmt, c1) :- Round(source, c);
      ParseLoop(source, MakeNode(None, Some(NdSequence), node, stmt), c1)
  }

  /** parse, on a fresh parser over `source`. */
  function Parse(source: seq<Token>): Result<Tree> {
    var c :- NextToken(source, Start);
    ParseLoop(source, Nil, c)
  }
}

=== FILE: parser_props.dfy ===
/** What the parser of Parser.java does with particular token sequences, and
    the shape of the tree parse returns. */
module ParserProps {
  import opened Base
  import opened Text
  import opened ParserTypes
  import opened ParserTables
  import opened Ast
  import opened Parser

  /** The kinds expressionParse reads as a single operand. */
  predicate IsOperand(k: TokenType) {
    k == Identifier || k == Integer || k == String
  }

  /** The cursor after reading the token at `c.position`. */
  function Read(source: seq<Token>, c: Cursor): Cursor
    requires c.position < |source|
  {
    Cursor(Some(source[c.position]), c.current, c.position + 1)
  }

  // ---------------------------------------------------------------------------
  // opCheck and the operator table
  // ---------------------------------------------------------------------------

  /** opCheck accepts exactly the kinds the TokenType table gives a
      precedence, which are exactly the ones it flags binary or unary; it
      reads nothing, and past the end of the list it throws. */
  lemma OpCheckIsPrecedence(source: seq<Token>, c: Cursor)
    ensures OpCheck(source, c).Ok? <==> c.position < |source|
    ensures OpCheck(source, c).Ok? ==>
      (OpCheck(source, c).value <==> Meta(source[c.position].kind).precedence >= 0)
    ensures OpCheck(source, c).Ok? ==>
      (OpCheck(source, c).value <==> Meta(source[c.position].kind).isBinary || Meta(source[c.position].kind).isUnary)
    ensures OpCheck(source, c).Err? ==> OpCheck(source, c).error == IndexOutOfBounds(c.position)
  {
    if c.position < |source| {
      PrecedenceOfOperations(source[c.position].kind);
    }
  }

  // ---------------------------------------------------------------------------
  // Expressions
  // ---------------------------------------------------------------------------

  /** An operand not followed by an operation becomes a leaf of the
      typeMap's node type; only the token after it is read. */
  lemma OperandLeaf(source: seq<Token>, c: Cursor, t: Token)
    requires c.current == Some(t) && IsOperand(t.kind)
    requires c.position < |source| && !IsOperation(source[c.position].kind)
    ensures ExpressionParse(source, c) == Ok((Leaf(Some(t), TypeMap(t.kind)), Read(source, c)))
  {
  }

  /** A leaf is dumped as its node type and "null": the token's text is
      never stored in the node, so it is never printed. */
  lemma LeafPrintsNull(t: Token, sb: string)
    requires IsOperand(t.kind)
    ensures PrintAST(Leaf(Some(t), TypeMap(t.kind)), sb) == sb + Name(t.kind) + " null\n"
  {
  }

  /** At an operation, expressionParse finds no case of its switch: nothing
      is read and no tree is built. */
  lemma OperationYieldsNothing(source: seq<Token>, c: Cursor, t: Token)
    requires c.current == Some(t) && (IsOperation(t.kind) || t.kind == LeftBrace)
    ensures ExpressionParse(source, c) == Ok((Nil, c))
  {
  }

  /** An operand followed by an operation: the operation becomes the node,
      the operand its left leaf, and its right subtree is empty, because the
      recursive call starts at the operation token itself. Parsing stops
      with the operation current; what follows it is not part of the
      expression. */
  lemma OperandOperation(source: seq<Token>, c: Cursor, t: Token)
    requires c.current == Some(t) && IsOperand(t.kind)
    requires c.position < |source| && IsOperation(source[c.position].kind)
    ensures var op := source[c.position];
      ExpressionParse(source, c)
      == Ok((MakeNode(Some(op), TypeMap(op.kind), Leaf(Some(t), TypeMap(t.kind)), Nil), Read(source, c)))
  {
    var c1 := Read(source, c);
    OperationYieldsNothing(source, c1, source[c.position]);
  }

  /** A parenthesised operand `( x )` followed by a token that is no
      operation is the operand's leaf, with both parentheses read. */
  lemma ParenthesisedOperand(source: seq<Token>, c: Cursor, t: Token)
    requires c.current == Some(t) && t.kind == LeftParen
    requires c.position + 3 < |source|
    requires IsOperand(source[c.position].kind) && source[c.position + 1].kind == RightParen
    requires !IsOperation(source[c.position + 3].kind)
    ensures var x := source[c.position];
      ExpressionParse(source, c)
      == Ok((Leaf(Some(x), TypeMap(x.kind)), Cursor(Some(source[c.position + 2]), Some(source[c.position + 1]), c.position + 3)))
  {
    var c1 := Read(source, c);
    OperandLeaf(source, c1, source[c.position]);
    var c2 := Read(source, c1);
    assert ParentheticalExpression(source, c) == Ok((Leaf(Some(source[c.position]), TypeMap(source[c.position].kind)), Read(source, c2)));
  }

  // ---------------------------------------------------------------------------
  // Assignments
  // ---------------------------------------------------------------------------

  /** The error every assignment ends in: the check that the token before
      the current one is an identifier, made after the `=` has been read. */
  function AssignmentError(eq: Token): Error {
    Fatal(eq.line, eq.pos, ExpectMessage("Error with expected assignment", Identifier, OpAssign))
  }

  /** assignmentParse at an `=` that is not the last token stops with an
      error at that `=`, whatever follows it. */
  lemma AssignmentFails(source: seq<Token>, c: Cursor, eq: Token)
    requires c.current == Some(eq) && eq.kind == OpAssign && c.position < |source|
    ensures AssignmentParse(source, c) == Err(AssignmentError(eq))
  {
    var c1 := Read(source, c);
    assert Expect(source, c, "Error with expected assignment", OpAssign) == Ok(c1);
  }

  /** A statement `x = ...` stops the parser at its `=`: the identifier is
      read, expressionParse sees the `=`, and assignmentParse fails. */
  lemma AssignmentStatementFails(source: seq<Token>, c: Cursor, x: Token)
    requires c.current == Some(x) && x.kind == Identifier
    requires c.position + 1 < |source| && source[c.position].kind == OpAssign
    ensures StatementParse(source, c) == Err(AssignmentError(source[c.position]))
  {
    var c1 := Read(source, c);
    AssignmentFails(source, c1, source[c.position]);
  }

  // ---------------------------------------------------------------------------
  // Braces
  // ---------------------------------------------------------------------------

  /** braceStatement succeeds only when it read a left brace at both ends. */
  lemma BraceNeedsTwoLeftBraces(source: seq<Token>, c: Cursor)
    requires BraceStatement(source, c).Ok?
    ensures c.current.Some? && c.current.value.kind == LeftBrace
    ensures var after := BraceStatement(source, c).value.1;
      after.prev.Some? && after.prev.value.kind == LeftBrace
  {
    var c1 := Expect(source, c, "brace_statement", LeftBrace).value;
    var c2 := StatementParse(source, c1).value.1;
    assert BraceStatement(source, c).value.1 == Expect(source, c2, "brace_statement", LeftBrace).value;
  }

  /** So the block `{ }` is rejected at its right brace. */
  lemma EmptyBlockFails(source: seq<Token>, c: Cursor, open: Token)
    requires c.current == Some(open) && open.kind == LeftBrace
    requires c.position < |source| && source[c.position].kind == RightBrace
    ensures var close := source[c.position];
      BraceStatement(source, c) == Err(Fatal(close.line, close.pos, ExpectMessage("brace_statement", LeftBrace, RightBrace)))
  {
    var c1 := Read(source, c);
    assert StatementParse(source, c1) == Ok((Nil, c1));
  }

  // ---------------------------------------------------------------------------
  // Statements
  // ---------------------------------------------------------------------------

  predicate IsKeyword(k: TokenType) {
    k == KeywordElse || k == KeywordIf || k == KeywordPrint || k == KeywordPutc || k == KeywordWhile
  }

  /** A keyword statement is a node of the keyword's typeMap type with the
      expression after the keyword on its left and nothing on its right;
      `else` has no typeMap entry, so its node has a null type. */
  lemma KeywordStatement(source: seq<Token>, c: Cursor, k: Token)
    requires c.current == Some(k) && IsKeyword(k.kind) && c.position < |source|
    ensures var r := ExpressionParse(source, Read(source, c));
      StatementParse(source, c)
      == if r.Ok? then Ok((MakeNode(Some(k), TypeMap(k.kind), r.value.0, Nil), r.value.1)) else Err(r.error)
    ensures TypeMap(k.kind).None? <==> k.kind == KeywordElse
    ensures StatementParse(source, c).Ok? <==> ExpressionParse(source, Read(source, c)).Ok?
    ensures StatementParse(source, c).Ok? ==>
      DumpLines(StatementParse(source, c).value.0)
      == [KeywordLine(k.kind)] + DumpLines(ExpressionParse(source, Read(source, c)).value.0) + [";"]
  {
    var r := ExpressionParse(source, Read(source, c));
    if r.Ok? {
      KeywordDump(k, r.value.0);
    }
  }

  lemma KeywordDump(k: Token, e: Tree)
    requires IsKeyword(k.kind)
    ensures DumpLines(MakeNode(Some(k), TypeMap(k.kind), e, Nil)) == [KeywordLine(k.kind)] + DumpLines(e) + [";"]
  {
    assert !IsLeafKind(TypeMap(k.kind));
    assert KindText(TypeMap(k.kind)) == KeywordLine(k.kind);
  }

  /** The first dump line of the statement a keyword starts, written out
      independently of the type table: `else` has no node type and is
      dumped as `null`. */
  function KeywordLine(k: TokenType): string
    requires IsKeyword(k)
  {
    match k
    case KeywordIf => "If"
    case KeywordWhile => "While"
    case KeywordPrint => "Prts"
    case KeywordPutc => "Prtc"
    case KeywordElse => "null"
  }

  // ---------------------------------------------------------------------------
  // The statement loop
  // ---------------------------------------------------------------------------

  /** The statements parse reads from cursor `c` on, up to the end of input,
      in order; or the error that stopped it. */
  function Statements(source: seq<Token>, c: Cursor): Result<seq<Tree>>
    decreases |source| - c.position
  {
    if c.current.None? then Err(NullReference)
    else if c.current.value.kind == EndOfInput then Ok([])
    else
      var (stmt, c1) :- Round(source, c);
      var rest :- Statements(source, c1);
      Ok([stmt] + rest)
  }

  /** The tree of a list of statements: none is no tree at all; otherwise a
      `Sequence` node with the tree of all but the last statement on its
      left and the last statement on its right. */
  function SequenceOf(stmts: seq<Tree>): (t: Tree)
    ensures t == Nil <==> stmts == []
  {
    if stmts == [] then Nil
    else MakeNode(None, Some(NdSequence), SequenceOf(stmts[..|stmts| - 1]), stmts[|stmts| - 1])
  }

  lemma SequenceOfSnoc(done: seq<Tree>, stmt: Tree)
    ensures SequenceOf(done + [stmt]) == MakeNode(None, Some(NdSequence), SequenceOf(done), stmt)
  {
    assert (done + [stmt])[..|done|] == done;
  }

  lemma SnocAppend(a: seq<Tree>, x: Tree, b: seq<Tree>)
    ensures a + [x] + b == a + ([x] + b)
  {
  }

  /** The loop of parse, started on the tree of the statements `done`,
      returns the tree of `done` followed by the statements it reads. */
  lemma {:induction false} ParseLoopChains(source: seq<Token>, done: seq<Tree>, c: Cursor)
    ensures var ss := Statements(source, c);
      ParseLoop(source, SequenceOf(done), c) == if ss.Ok? then Ok(SequenceOf(done + ss.value)) else Err(ss.error)
    decreases |source| - c.position
  {
    if c.current.Some? && c.current.value.kind != EndOfInput {
      var r := Round(source, c);
      if r.Ok? {
        var (stmt, c1) := r.value;
        SequenceOfSnoc(done, stmt);
        ParseLoopChains(source, done + [stmt], c1);
        var ss := Statements(source, c1);
        if ss.Ok? {
          SnocAppend(done, stmt, ss.value);
        }
      }
    } else if c.current.Some? {
      assert done + [] == done;
    }
  }

  /** parse returns the tree of the statements read from the first token
      on, and fails exactly when reading them fails or the list is empty. */
  lemma ParseIsSequenceOfStatements(source: seq<Token>)
    ensures Parse(source).Ok? <==> |source| > 0 && Statements(source, Read(source, Start)).Ok?
    ensures Parse(source).Ok? ==> Parse(source).value == SequenceOf(Statements(source, Read(source, Start)).value)
    ensures |source| == 0 ==> Parse(source) == Err(IndexOutOfBounds(0))
  {
    if |source| > 0 {
      var ss := Statements(source, Read(source, Start));
      ParseLoopChains(source, [], Read(source, Start));
      if ss.Ok? {
        assert [] + ss.value == ss.value;
      }
    }
  }

  /** parse returns no tree at all exactly when the first token is the end
      of input. */
  lemma ParseEmptyIffEndOfInput(source: seq<Token>)
    requires Parse(source).Ok?
    ensures Parse(source).value == Nil <==> source[0].kind == EndOfInput
  {
    ParseIsSequenceOfStatements(source);
    var c := Read(source, Start);
    if source[0].kind != EndOfInput {
      var ss := Statements(source, c);
      assert ss.value != [];
    }
  }

  // ---------------------------------------------------------------------------
  // The dump of a program
  // ---------------------------------------------------------------------------

  /** A program is dumped as the single line `;` exactly when it is empty,
      that is when its first token is the end of input; any other program
      starts its dump with a `Sequence` line. */
  lemma EmptyProgramDump(source: seq<Token>, sb: string)
    requires Parse(source).Ok?
    ensures PrintAST(Parse(source).value, sb) == sb + ";\n" <==> source[0].kind == EndOfInput
  {
    ParseEmptyIffEndOfInput(source);
    if source[0].kind == EndOfInput {
      EmptyDump(sb);
    } else {
      ParseIsSequenceOfStatements(source);
      SequencePrintsSequence(Statements(source, Read(source, Start)).value, sb);
    }
  }

  lemma SequencePrintsSequence(stmts: seq<Tree>, sb: string)
    requires stmts != []
    ensures |PrintAST(SequenceOf(stmts), sb)| > |sb| && PrintAST(SequenceOf(stmts), sb)[|sb|] == 'S'
  {
    var t := SequenceOf(stmts);
    PrintASTLines(t, sb);
    var ls := DumpLines(t);
    assert ls[0] == "Sequence";
    assert Unlines(ls) == ls[0] + "\n" + Unlines(ls[1..]);
  }

  function Repeat(line: string, n: nat): (ls: seq<string>)
    ensures |ls| == n && forall i | 0 <= i < n :: ls[i] == line
  {
    if n == 0 then [] else Repeat(line, n - 1) + [line]
  }

  /** The dumps of the statements, one after the other. */
  function Dumps(stmts: seq<Tree>): seq<string> {
    if stmts == [] then [] else Dumps(stmts[..|stmts| - 1]) + DumpLines(stmts[|stmts| - 1])
  }

  /** The dump of a program's tree: one `Sequence` line per statement, a `;`
      for the empty tree at the bottom of the chain, then every statement's
      own dump in program order. */
  lemma {:induction false} SequenceDump(stmts: seq<Tree>)
    ensures DumpLines(SequenceOf(stmts)) == Repeat("Sequence", |stmts|) + [";"] + Dumps(stmts)
  {
    if stmts != [] {
      var init := stmts[..|stmts| - 1];
      var last := stmts[|stmts| - 1];
      SequenceDump(init);
      assert NodeName(NdSequence) == "Sequence";
      assert !IsLeafKind(Some(NdSequence));
      assert Repeat("Sequence", |stmts|) == Repeat("Sequence", |init|) + ["Sequence"];
      assert Repeat("Sequence", |stmts|) == ["Sequence"] + Repeat("Sequence", |init|);
    }
  }
}

=== FILE: parser_tables.dfy ===
/** Facts about the static tables of Parser.java: the names of the token
    and node kinds are pairwise distinct, the operator metadata marks
    exactly the operations, and the typeMap is injective and agrees with the
    node types the TokenType table carries. */
module ParserTables {
  import opened Base
  import opened ParserTypes

  // KindOfNameOfName, one family of kinds at a time.

  lemma PlainNamesFound(k: TokenType)
    requires k == Comma || k == EndOfInput || k == Identifier || k == Integer
      || k == String
    ensures KindOfName(Name(k)) == Some(k)
  {
  }

  lemma BracketNamesFound(k: TokenType)
    requires k == LeftBrace || k == LeftParen || k == RightBrace || k == RightParen
      || k == Semicolon
    ensures KindOfName(Name(k)) == Some(k)
  {
  }

  lemma KeywordNamesFound(k: TokenType)
    requires k == KeywordElse || k == KeywordIf || k == KeywordPrint || k == KeywordPutc
      || k == KeywordWhile
    ensures KindOfName(Name(k)) == Some(k)
  {
  }

  lemma ArithmeticNamesFound(k: TokenType)
    requires k == OpAdd || k == OpDivide || k == OpMod || k == OpMultiply
      || k == OpSubtract
    ensures KindOfName(Name(k)) == Some(k)
  {
  }

  lemma UnaryNamesFound(k: TokenType)
    requires k == OpAssign || k == OpNegate || k == OpNot || k == OpAnd
      || k == OpOr
    ensures KindOfName(Name(k)) == Some(k)
  {
  }

  lemma ComparisonNamesFound(k: TokenType)
    requires k == OpEqual || k == OpGreater || k == OpGreaterEqual || k == OpLess
      || k == OpLessEqual || k == OpNotEqual
    ensures KindOfName(Name(k)) == Some(k)
  {
  }

  /** Every kind is found under its own name, so no two kinds share a name
      and the lookup misses exactly the strings that name no kind. */
  lemma KindOfNameOfName(k: TokenType)
    ensures KindOfName(Name(k)) == Some(k)
  {
    if k.Comma? || k.EndOfInput? || k.Identifier? || k.Integer? || k.String? {
      PlainNamesFound(k);
    } else if k.LeftBrace? || k.LeftParen? || k.RightBrace? || k.RightParen? || k.Semicolon? {
      BracketNamesFound(k);
    } else if k.KeywordElse? || k.KeywordIf? || k.KeywordPrint? || k.KeywordPutc? || k.KeywordWhile? {
      KeywordNamesFound(k);
    } else if k.OpAdd? || k.OpDivide? || k.OpMod? || k.OpMultiply? || k.OpSubtract? {
      ArithmeticNamesFound(k);
    } else if k.OpAssign? || k.OpNegate? || k.OpNot? || k.OpAnd? || k.OpOr? {
      UnaryNamesFound(k);
    } else {
      ComparisonNamesFound(k);
    }
  }

  lemma NameInjective(a: TokenType, b: TokenType)
    requires Name(a) == Name(b)
    ensures a == b
  {
    KindOfNameOfName(a);
    KindOfNameOfName(b);
  }

  /** The kinds with a precedence are exactly the operations, and exactly the
      kinds flagged binary or unary; all others, `Op_assign` included, have
      precedence -1. */
  lemma PrecedenceOfOperations(k: TokenType)
    ensures Meta(k).precedence >= 0 <==> IsOperation(k)
    ensures IsOperation(k) <==> Meta(k).isBinary || Meta(k).isUnary
    ensures !IsOperation(k) ==> Meta(k).precedence == -1
    ensures IsOperation(k) ==> 4 <= Meta(k).precedence <= 14
  {
    if IsOperation(k) {
      OperationPrecedence(k);
    } else {
      OtherPrecedence(k);
    }
  }

  lemma OperationPrecedence(k: TokenType)
    requires IsOperation(k)
    ensures 4 <= Meta(k).precedence <= 14
    ensures Meta(k).isBinary || Meta(k).isUnary
  {
  }

  lemma OtherPrecedence(k: TokenType)
    requires !IsOperation(k)
    ensures Meta(k).precedence == -1
    ensures !Meta(k).isBinary && !Meta(k).isUnary
  {
  }

  /** No kind is right-associative; `Op_equal` alone is flagged both binary
      and unary, and only negate and not are unary otherwise. */
  lemma AssociativityAndArity(k: TokenType)
    ensures !Meta(k).rightAssoc
    ensures Meta(k).isBinary && Meta(k).isUnary <==> k == OpEqual
    ensures Meta(k).isUnary <==> k == OpEqual || k == OpNegate || k == OpNot
  {
  }

  // NodeOfNameOfName, a few node kinds at a time.

  lemma BinaryNodeNamesFound(n: NodeType)
    requires n == NdAdd || n == NdAnd || n == NdAssign || n == NdDiv
      || n == NdEql
    ensures NodeOfName(NodeName(n)) == Some(n)
  {
  }

  lemma RelationNodeNamesFound(n: NodeType)
    requires n == NdGeq || n == NdGtr || n == NdIdent || n == NdIf
      || n == NdInteger
    ensures NodeOfName(NodeName(n)) == Some(n)
  {
  }

  lemma ArithmeticNodeNamesFound(n: NodeType)
    requires n == NdLeq || n == NdLss || n == NdMod || n == NdMul
      || n == NdNegate
    ensures NodeOfName(NodeName(n)) == Some(n)
  {
  }

  lemma LogicNodeNamesFound(n: NodeType)
    requires n == NdNeq || n == NdNone || n == NdNot || n == NdOr
    ensures NodeOfName(NodeName(n)) == Some(n)
  {
  }

  lemma PrintNodeNamesFound(n: NodeType)
    requires n == NdPrtc || n == NdPrti || n == NdPrts
    ensures NodeOfName(NodeName(n)) == Some(n)
  {
  }

  lemma StatementNodeNamesFound(n: NodeType)
    requires n == NdSequence || n == NdString || n == NdSub || n == NdWhile
    ensures NodeOfName(NodeName(n)) == Some(n)
  {
  }

  /** Every node kind is read back from its display name: the names are
      pairwise distinct. */
  lemma NodeOfNameOfName(n: NodeType)
    ensures NodeOfName(NodeName(n)) == Some(n)
  {
    if n.NdAdd? || n.NdAnd? || n.NdAssign? || n.NdDiv? || n.NdEql? {
      BinaryNodeNamesFound(n);
    } else if n.NdGeq? || n.NdGtr? || n.NdIdent? || n.NdIf? || n.NdInteger? {
      RelationNodeNamesFound(n);
    } else if n.NdLeq? || n.NdLss? || n.NdMod? || n.NdMul? || n.NdNegate? {
      ArithmeticNodeNamesFound(n);
    } else if n.NdNeq? || n.NdNone? || n.NdNot? || n.NdOr? {
      LogicNodeNamesFound(n);
    } else if n.NdPrtc? || n.NdPrti? || n.NdPrts? {
      PrintNodeNamesFound(n);
    } else {
      StatementNodeNamesFound(n);
    }
  }

  lemma NodeNameInjective(a: NodeType, b: NodeType)
    requires NodeName(a) == NodeName(b)
    ensures a == b
  {
    NodeOfNameOfName(a);
    NodeOfNameOfName(b);
  }

  /** The typeMap is injective: KindOfNode undoes it on every kind it maps. */
  lemma TypeMapInverse(k: TokenType)
    ensures TypeMap(k).Some? ==> KindOfNode(TypeMap(k).value) == Some(k)
  {
  }

  lemma TypeMapInjective(a: TokenType, b: TokenType)
    requires TypeMap(a).Some? && TypeMap(a) == TypeMap(b)
    ensures a == b
  {
    TypeMapInverse(a);
    TypeMapInverse(b);
  }

  /** The typeMap and the enum's own node types agree wherever the map has
      an entry, except for print and putc, which the enum leaves at nd_None;
      where the map has no entry the enum says nd_None too. */
  lemma TypeMapAgreesWithMetadata(k: TokenType)
    ensures TypeMap(k).Some? && k != KeywordPrint && k != KeywordPutc ==> TypeMap(k).value == Meta(k).nodeType
    ensures k == KeywordPrint || k == KeywordPutc ==> Meta(k).nodeType == NdNone && TypeMap(k).value != NdNone
    ensures TypeMap(k).None? ==> Meta(k).nodeType == NdNone
  {
  }
}

=== FILE: parser_types.dfy ===
/** The static tables of Parser.java: its own `TokenType` enum with the
    operator metadata, the `NodeType` enum with its display names, the
    `typeMap` from token kinds to node kinds, and the parser's `Token`. */
module ParserTypes {
  import opened Base

  // ---------------------------------------------------------------------------
  // Token kinds and their metadata
  // ---------------------------------------------------------------------------

  /** Parser.TokenType, in declaration order (alphabetical, unlike the
      lexer's enum). */
  datatype TokenType =
    | Comma | EndOfInput | Identifier | Integer | KeywordElse | KeywordIf
    | KeywordPrint | KeywordPutc | KeywordWhile | LeftBrace | LeftParen
    | OpAdd | OpAnd | OpAssign | OpDivide | OpEqual | OpGreater | OpGreaterEqual
    | OpLess | OpLessEqual | OpMod | OpMultiply | OpNegate | OpNot | OpNotEqual
    | OpOr | OpSubtract | RightBrace | RightParen | Semicolon | String

  /** The name of the enum constant: what `toString` gives and what the
      token-line decoder looks kinds up by. */
  function Name(k: TokenType): string {
    match k
    case Comma => "Comma"
    case EndOfInput => "End_of_input"
    case Identifier => "Identifier"
    case Integer => "Integer"
    case KeywordElse => "Keyword_else"
    case KeywordIf => "Keyword_if"
    case KeywordPrint => "Keyword_print"
    case KeywordPutc => "Keyword_putc"
    case KeywordWhile => "Keyword_while"
    case LeftBrace => "LeftBrace"
    case LeftParen => "LeftParen"
    case OpAdd => "Op_add"
    case OpAnd => "Op_and"
    case OpAssign => "Op_assign"
    case OpDivide => "Op_divide"
    case OpEqual => "Op_equal"
    case OpGreater => "Op_greater"
    case OpGreaterEqual => "Op_greaterequal"
    case OpLess => "Op_less"
    case OpLessEqual => "Op_lessequal"
    case OpMod => "Op_mod"
    case OpMultiply => "Op_multiply"
    case OpNegate => "Op_negate"
    case OpNot => "Op_not"
    case OpNotEqual => "Op_notequal"
    case OpOr => "Op_or"
    case OpSubtract => "Op_subtract"
    case RightBrace => "RightBrace"
    case RightParen => "RightParen"
    case Semicolon => "Semicolon"
    case String => "String"
  }

  /** A cheap key for a name: its length, its first character and its last
      two. No two names of the same table share a key, so, like the hash in a
      HashMap, the key picks the one candidate and a single comparison of the
      whole string confirms it. */
  function Key(s: string): (int, char, char, char) {
    if |s| < 2 then (|s|, ' ', ' ', ' ') else (|s|, s[0], s[|s| - 2], s[|s| - 1])
  }

  /** The only kind whose name can have the key `key`. */
  function KindWithKey(key: (int, char, char, char)): Option<TokenType> {
    match key
    case (5, 'C', 'm', 'a') => Some(Comma)
    case (12, 'E', 'u', 't') => Some(EndOfInput)
    case (10, 'I', 'e', 'r') => Some(Identifier)
    case (7, 'I', 'e', 'r') => Some(Integer)
    case (12, 'K', 's', 'e') => Some(KeywordElse)
    case (10, 'K', 'i', 'f') => Some(KeywordIf)
    case (13, 'K', 'n', 't') => Some(KeywordPrint)
    case (12, 'K', 't', 'c') => Some(KeywordPutc)
    case (13, 'K', 'l', 'e') => Some(KeywordWhile)
    case (9, 'L', 'c', 'e') => Some(LeftBrace)
    case (9, 'L', 'e', 'n') => Some(LeftParen)
    case (6, 'O', 'd', 'd') => Some(OpAdd)
    case (6, 'O', 'n', 'd') => Some(OpAnd)
    case (9, 'O', 'g', 'n') => Some(OpAssign)
    case (9, 'O', 'd', 'e') => Some(OpDivide)
    case (8, 'O', 'a', 'l') => Some(OpEqual)
    case (10, 'O', 'e', 'r') => Some(OpGreater)
    case (15, 'O', 'a', 'l') => Some(OpGreaterEqual)
    case (7, 'O', 's', 's') => Some(OpLess)
    case (12, 'O', 'a', 'l') => Some(OpLessEqual)
    case (6, 'O', 'o', 'd') => Some(OpMod)
    case (11, 'O', 'l', 'y') => Some(OpMultiply)
    case (9, 'O', 't', 'e') => Some(OpNegate)
    case (6, 'O', 'o', 't') => Some(OpNot)
    case (11, 'O', 'a', 'l') => Some(OpNotEqual)
    case (5, 'O', 'o', 'r') => Some(OpOr)
    case (11, 'O', 'c', 't') => Some(OpSubtract)
    case (10, 'R', 'c', 'e') => Some(RightBrace)
    case (10, 'R', 'e', 'n') => Some(RightParen)
    case (9, 'S', 'o', 'n') => Some(Semicolon)
    case (6, 'S', 'n', 'g') => Some(String)
    case _ => None
  }

  /** The kind a name belongs to: the `str_to_tokens` map main builds from
      `TokenType.values()`. */
  function KindOfName(name: string): (k: Option<TokenType>)
    ensures k.Some? ==> Name(k.value) == name
  {
    var candidate := KindWithKey(Key(name));
    if candidate.Some? && Name(candidate.value) == name then candidate else None
  }

  /** The five constructor arguments of a TokenType constant. */
  datatype Metadata = Metadata(rightAssoc: bool, isBinary: bool, isUnary: bool, precedence: int, nodeType: NodeType)

  function Meta(k: TokenType): Metadata {
    match k
    case Comma => Metadata(false, false, false, -1, NdNone)
    case EndOfInput => Metadata(false, false, false, -1, NdNone)
    case Identifier => Metadata(false, false, false, -1, NdIdent)
    case Integer => Metadata(false, false, false, -1, NdInteger)
    case KeywordElse => Metadata(false, false, false, -1, NdNone)
    case KeywordIf => Metadata(false, false, false, -1, NdIf)
    case KeywordPrint => Metadata(false, false, false, -1, NdNone)
    case KeywordPutc => Metadata(false, false, false, -1, NdNone)
    case KeywordWhile => Metadata(false, false, false, -1, NdWhile)
    case LeftBrace => Metadata(false, false, false, -1, NdNone)
    case LeftParen => Metadata(false, false, false, -1, NdNone)
    case OpAdd => Metadata(false, true, false, 12, NdAdd)
    case OpAnd => Metadata(false, true, false, 5, NdAnd)
    case OpAssign => Metadata(false, false, false, -1, NdAssign)
    case OpDivide => Metadata(false, true, false, 13, NdDiv)
    case OpEqual => Metadata(false, true, true, 9, NdEql)
    case OpGreater => Metadata(false, true, false, 10, NdGtr)
    case OpGreaterEqual => Metadata(false, true, false, 10, NdGeq)
    case OpLess => Metadata(false, true, false, 10, NdLss)
    case OpLessEqual => Metadata(false, true, false, 10, NdLeq)
    case OpMod => Metadata(false, true, false, 13, NdMod)
    case OpMultiply => Metadata(false, true, false, 13, NdMul)
    case OpNegate => Metadata(false, false, true, 14, NdNegate)
    case OpNot => Metadata(false, false, true, 14, NdNot)
    case OpNotEqual => Metadata(false, true, false, 9, NdNeq)
    case OpOr => Metadata(false, true, false, 4, NdOr)
    case OpSubtract => Metadata(false, true, false, 12, NdSub)
    case RightBrace => Metadata(false, false, false, -1, NdNone)
    case RightParen => Metadata(false, false, false, -1, NdNone)
    case Semicolon => Metadata(false, false, false, -1, NdNone)
    case String => Metadata(false, false, false, -1, NdString)
  }

  /** The kinds opCheck accepts: every `Op_` kind except `Op_assign`. */
  predicate IsOperation(k: TokenType) {
    k == OpAdd || k == OpAnd || k == OpDivide || k == OpEqual || k == OpGreater
    || k == OpGreaterEqual || k == OpLess || k == OpLessEqual || k == OpMod
    || k == OpMultiply || k == OpNegate || k == OpNot || k == OpNotEqual
    || k == OpOr || k == OpSubtract
  }

  // ---------------------------------------------------------------------------
  // Node kinds
  // ---------------------------------------------------------------------------

  /** Parser.NodeType: `nd_Add` is `NdAdd` and so on. */
  datatype NodeType =
    | NdAdd | NdAnd | NdAssign | NdDiv | NdEql | NdGeq | NdGtr | NdIdent | NdIf
    | NdInteger | NdLeq | NdLss | NdMod | NdMul | NdNegate | NdNeq | NdNone
    | NdNot | NdOr | NdPrtc | NdPrti | NdPrts | NdSequence | NdString | NdSub
    | NdWhile

  /** The display name `toString` returns. */
  function NodeName(n: NodeType): string {
    match n
    case NdAdd => "Add"
    case NdAnd => "And"
    case NdAssign => "Assign"
    case NdDiv => "Divide"
    case NdEql => "Equal"
    case NdGeq => "GreaterEqual"
    case NdGtr => "Greater"
    case NdIdent => "Identifier"
    case NdIf => "If"
    case NdInteger => "Integer"
    case NdLeq => "LessEqual"
    case NdLss => "Less"
    case NdMod => "Mod"
    case NdMul => "Multiply"
    case NdNegate => "Negate"
    case NdNeq => "NotEqual"
    case NdNone => ""
    case NdNot => "Not"
    case NdOr => "Or"
    case NdPrtc => "Prtc"
    case NdPrti => "Prti"
    case NdPrts => "Prts"
    case NdSequence => "Sequence"
    case NdString => "String"
    case NdSub => "Subtract"
    case NdWhile => "While"
  }

  /** The only node kind whose display name can have the key `key`. */
  function NodeWithKey(key: (int, char, char, char)): Option<NodeType> {
    match key
    case (3, 'A', 'd', 'd') => Some(NdAdd)
    case (3, 'A', 'n', 'd') => Some(NdAnd)
    case (6, 'A', 'g', 'n') => Some(NdAssign)
    case (6, 'D', 'd', 'e') => Some(NdDiv)
    case (5, 'E', 'a', 'l') => Some(NdEql)
    case (12, 'G', 'a', 'l') => Some(NdGeq)
    case (7, 'G', 'e', 'r') => Some(NdGtr)
    case (10, 'I', 'e', 'r') => Some(NdIdent)
    case (2, 'I', 'I', 'f') => Some(NdIf)
    case (7, 'I', 'e', 'r') => Some(NdInteger)
    case (9, 'L', 'a', 'l') => Some(NdLeq)
    case (4, 'L', 's', 's') => Some(NdLss)
    case (3, 'M', 'o', 'd') => Some(NdMod)
    case (8, 'M', 'l', 'y') => Some(NdMul)
    case (6, 'N', 't', 'e') => Some(NdNegate)
    case (8, 'N', 'a', 'l') => Some(NdNeq)
    case (0, ' ', ' ', ' ') => Some(NdNone)
    case (3, 'N', 'o', 't') => Some(NdNot)
    case (2, 'O', 'O', 'r') => Some(NdOr)
    case (4, 'P', 't', 'c') => Some(NdPrtc)
    case (4, 'P', 't', 'i') => Some(NdPrti)
    case (4, 'P', 't', 's') => Some(NdPrts)
    case (8, 'S', 'c', 'e') => Some(NdSequence)
    case (6, 'S', 'n', 'g') => Some(NdString)
    case (8, 'S', 'c', 't') => Some(NdSub)
    case (5, 'W', 'l', 'e') => Some(NdWhile)
    case _ => None
  }

  /** Reading a display name back. */
  function NodeOfName(name: string): (n: Option<NodeType>)
    ensures n.Some? ==> NodeName(n.value) == name
  {
    var candidate := NodeWithKey(Key(name));
    if candidate.Some? && NodeName(candidate.value) == name then candidate else None
  }

  // ---------------------------------------------------------------------------
  // The typeMap
  // ---------------------------------------------------------------------------

  /** createTypeMap: `None` for the kinds it has no entry for, which is what
      `HashMap.get` returns as `null`. */
  function TypeMap(k: TokenType): Option<NodeType> {
    match k
    case OpMultiply => Some(NdMul)
    case OpDivide => Some(NdDiv)
    case OpMod => Some(NdMod)
    case OpAdd => Some(NdAdd)
    case OpSubtract => Some(NdSub)
    case OpNegate => Some(NdNegate)
    case OpNot => Some(NdNot)
    case OpLess => Some(NdLss)
    case OpLessEqual => Some(NdLeq)
    case OpGreater => Some(NdGtr)
    case OpGreaterEqual => Some(NdGeq)
    case OpEqual => Some(NdEql)
    case OpNotEqual => Some(NdNeq)
    case OpAssign => Some(NdAssign)
    case OpAnd => Some(NdAnd)
    case OpOr => Some(NdOr)
    case KeywordIf => Some(NdIf)
    case KeywordWhile => Some(NdWhile)
    case Identifier => Some(NdIdent)
    case Integer => Some(NdInteger)
    case String => Some(NdString)
    case KeywordPrint => Some(NdPrts)
    case KeywordPutc => Some(NdPrtc)
    case _ => None
  }

  /** The token kind the typeMap sends to a node kind, if any. */
  function KindOfNode(n: NodeType): (k: Option<TokenType>)
    ensures k.Some? ==> TypeMap(k.value) == Some(n)
  {
    match n
    case NdMul => Some(OpMultiply)
    case NdDiv => Some(OpDivide)
    case NdMod => Some(OpMod)
    case NdAdd => Some(OpAdd)
    case NdSub => Some(OpSubtract)
    case NdNegate => Some(OpNegate)
    case NdNot => Some(OpNot)
    case NdLss => Some(OpLess)
    case NdLeq => Some(OpLessEqual)
    case NdGtr => Some(OpGreater)
    case NdGeq => Some(OpGreaterEqual)
    case NdEql => Some(OpEqual)
    case NdNeq => Some(OpNotEqual)
    case NdAssign => Some(OpAssign)
    case NdAnd => Some(OpAnd)
    case NdOr => Some(OpOr)
    case NdIf => Some(KeywordIf)
    case NdWhile => Some(KeywordWhile)
    case NdIdent => Some(Identifier)
    case NdInteger => Some(Integer)
    case NdString => Some(String)
    case NdPrts => Some(KeywordPrint)
    case NdPrtc => Some(KeywordPutc)
    case _ => None
  }

  // ---------------------------------------------------------------------------
  // Tokens
  // ---------------------------------------------------------------------------

  /** Parser.Token. */
  datatype Token = Token(kind: TokenType, value: string, line: int, pos: int)
}

=== FILE: text.dfy ===
/** The pieces of the Java library the core leans on for text: decimal
    formatting (`%d`, `%5d`, `%-15s`, `%4s`), `Integer.parseInt`, the
    default word splitting of `java.util.StringTokenizer`, and the line
    splitting of `java.util.Scanner.nextLine`. */
module Text {
  import opened Base

  // ---------------------------------------------------------------------------
  // Decimal numbers
  // ---------------------------------------------------------------------------

  /** Smallest and largest Java `int`. */
  const IntMin: int := -0x8000_0000
  const IntMax: int := 0x7fff_ffff

  predicate IsAsciiDigit(c: char) {
    '0' <= c <= '9'
  }

  predicate AllDigits(s: string) {
    forall i | 0 <= i < |s| :: IsAsciiDigit(s[i])
  }

  function DigitChar(d: nat): (c: char)
    requires d < 10
    ensures IsAsciiDigit(c) && c as int - '0' as int == d
  {
    ('0' as int + d) as char
  }

  /** The number a run of ASCII digits denotes, most significant digit first. */
  function DigitsValue(s: string): nat
    requires AllDigits(s)
  {
    if s == [] then 0 else 10 * DigitsValue(s[..|s| - 1]) + (s[|s| - 1] as int - '0' as int)
  }

  /** The spelling `%d` gives a natural number: its digits, no sign, no leading zero. */
  function NatToString(n: nat): (s: string)
    ensures |s| >= 1 && AllDigits(s)
    ensures DigitsValue(s) == n
    ensures |s| > 1 ==> s[0] != '0'
  {
    if n < 10 then [DigitChar(n)]
    else
      var s := NatToString(n / 10) + [DigitChar(n % 10)];
      assert s[..|s| - 1] == NatToString(n / 10);
      s
  }

  /** The spelling `%d` gives an int: a minus sign in front of a negative value. */
  function IntToString(n: int): string {
    if n < 0 then "-" + NatToString(-n) else NatToString(n)
  }

  /** `Integer.parseInt` on ASCII text: an optional `-` or `+`, at least one
      digit, and a value that fits a Java `int`; anything else throws
      `NumberFormatException`. */
  function ParseInt(w: string): (r: Result<int>)
    ensures r.Ok? ==> IntMin <= r.value <= IntMax
    ensures r.Ok? ==> |w| >= 1 && AllDigits(if w[0] == '-' || w[0] == '+' then w[1..] else w)
  {
    var digits := if |w| > 0 && (w[0] == '-' || w[0] == '+') then w[1..] else w;
    if digits == [] || !AllDigits(digits) then Err(NumberFormat(w))
    else
      var magnitude: int := DigitsValue(digits);
      var v: int := if w[0] == '-' then -magnitude else magnitude;
      if IntMin <= v <= IntMax then Ok(v) else Err(NumberFormat(w))
  }

  /** Reading back what `%d` wrote gives the number again. */
  lemma ParseIntToString(n: int)
    requires IntMin <= n <= IntMax
    ensures ParseInt(IntToString(n)) == Ok(n)
  {
    var w := IntToString(n);
    if n < 0 {
      assert w[1..] == NatToString(-n);
    } else {
      assert w == NatToString(n);
      assert IsAsciiDigit(w[0]);
    }
  }

  // ---------------------------------------------------------------------------
  // Padding
  // ---------------------------------------------------------------------------

  function Spaces(n: nat): (r: string)
    ensures |r| == n
    ensures forall i | 0 <= i < n :: r[i] == ' '
  {
    seq(n, _ => ' ')
  }

  /** `%<width>s` and `%<width>d`: right-justified in at least `width` characters. */
  function PadLeft(s: string, width: nat): (r: string)
    ensures |r| == if |s| >= width then |s| else width
    ensures r == Spaces(|r| - |s|) + s
  {
    if |s| >= width then s else Spaces(width - |s|) + s
  }

  /** `%-<width>s`: left-justified in at least `width` characters. */
  function PadRight(s: string, width: nat): (r: string)
    ensures |r| == if |s| >= width then |s| else width
    ensures r == s + Spaces(|r| - |s|)
  {
    if |s| >= width then s else s + Spaces(width - |s|)
  }

  // ---------------------------------------------------------------------------
  // Words, as java.util.StringTokenizer splits them
  // ---------------------------------------------------------------------------

  /** The default delimiters of StringTokenizer: space, tab, newline, carriage
      return and form feed. */
  predicate IsDelimiter(c: char) {
    c == ' ' || c == '\t' || c == '\n' || c == '\r' || c == '\U{C}'
  }

  predicate IsBlank(s: string) {
    forall i | 0 <= i < |s| :: IsDelimiter(s[i])
  }

  /** A word: non-empty and free of delimiters. */
  predicate IsWord(w: string) {
    |w| > 0 && forall i | 0 <= i < |w| :: !IsDelimiter(w[i])
  }

  /** Length of the longest delimiter-free prefix. */
  function WordLength(s: string): (n: nat)
    ensures n <= |s|
    ensures forall i | 0 <= i < n :: !IsDelimiter(s[i])
    ensures n == |s| || IsDelimiter(s[n])
  {
    if s == [] || IsDelimiter(s[0]) then 0 else 1 + WordLength(s[1..])
  }

  /** The words `nextToken` hands out one after another, in order. */
  function Words(s: string): (ws: seq<string>)
    ensures forall i | 0 <= i < |ws| :: IsWord(ws[i])
    decreases |s|
  {
    if s == [] then []
    else if IsDelimiter(s[0]) then Words(s[1..])
    else
      var n := WordLength(s);
      [s[..n]] + Words(s[n..])
  }

  /** Leading delimiters produce no word. */
  lemma {:induction false} WordsAfterBlank(b: string, t: string)
    requires IsBlank(b)
    ensures Words(b + t) == Words(t)
    decreases |b|
  {
    if b != [] {
      assert (b + t)[0] == b[0];
      assert (b + t)[1..] == b[1..] + t;
      WordsAfterBlank(b[1..], t);
    } else {
      assert b + t == t;
    }
  }

  /** A word followed by a delimiter (or by nothing) is read as one word. */
  lemma WordsOfWord(w: string, t: string)
    requires IsWord(w)
    requires t == [] || IsDelimiter(t[0])
    ensures Words(w + t) == [w] + Words(t)
  {
    var s := w + t;
    var n := WordLength(s);
    assert forall i | 0 <= i < |w| :: s[i] == w[i];
    assert |t| > 0 ==> s[|w|] == t[0];
    assert n == |w|;
    assert s[..n] == w;
    assert s[n..] == t;
  }

  /** Words separated by single spaces, each followed by one space, as the
      token-line decoder assembles a value. */
  function SpaceTerminated(ws: seq<string>): string {
    if ws == [] then "" else ws[0] + " " + SpaceTerminated(ws[1..])
  }

  /** Splitting the assembled value again returns the same words. */
  lemma {:induction false} WordsOfSpaceTerminated(ws: seq<string>)
    requires forall i | 0 <= i < |ws| :: IsWord(ws[i])
    ensures Words(SpaceTerminated(ws)) == ws
  {
    if ws != [] {
      var rest := SpaceTerminated(ws[1..]);
      assert SpaceTerminated(ws) == ws[0] + (" " + rest);
      WordsOfWord(ws[0], " " + rest);
      WordsAfterBlank(" ", rest);
      WordsOfSpaceTerminated(ws[1..]);
    }
  }

  // ---------------------------------------------------------------------------
  // Counting characters
  // ---------------------------------------------------------------------------

  function CountOf(c: char, s: string): nat {
    if s == [] then 0 else (if s[0] == c then 1 else 0) + CountOf(c, s[1..])
  }

  /** A slice is its first character followed by the rest. */
  lemma SliceCons(s: string, i: int, j: int)
    requires 0 <= i < j <= |s|
    ensures s[i..j] == [s[i]] + s[i + 1..j]
  {
  }

  lemma CountOfCons(c: char, x: char, s: string)
    ensures CountOf(c, [x] + s) == (if x == c then 1 else 0) + CountOf(c, s)
  {
    assert ([x] + s)[1..] == s;
  }

  lemma {:induction false} CountOfAbsent(c: char, s: string)
    requires c !in s
    ensures CountOf(c, s) == 0
  {
    if s != [] {
      assert c !in s[1..];
      CountOfAbsent(c, s[1..]);
    }
  }

  lemma {:induction false} CountOfAppend(c: char, a: string, b: string)
    ensures CountOf(c, a + b) == CountOf(c, a) + CountOf(c, b)
    decreases |a|
  {
    if a != [] {
      assert (a + b)[0] == a[0];
      assert (a + b)[1..] == a[1..] + b;
      CountOfAppend(c, a[1..], b);
    } else {
      assert a + b == b;
    }
  }

  /** Index of the last occurrence of `c`. */
  function LastIndexOf(c: char, s: string): (i: nat)
    requires c in s
    ensures i < |s| && s[i] == c
    ensures forall j | i < j < |s| :: s[j] != c
  {
    if c in s[1..] then 1 + LastIndexOf(c, s[1..]) else 0
  }

  // ---------------------------------------------------------------------------
  // Joining lines
  // ---------------------------------------------------------------------------

  /** Lines separated by a newline, none after the last. */
  function JoinLines(ls: seq<string>): string {
    if ls == [] then "" else if |ls| == 1 then ls[0] else ls[0] + "\n" + JoinLines(ls[1..])
  }

  /** Joining a line in front of a non-empty list puts a newline between. */
  lemma JoinLinesCons(l: string, ls: seq<string>)
    requires ls != []
    ensures JoinLines([l] + ls) == l + "\n" + JoinLines(ls)
  {
    assert ([l] + ls)[1..] == ls;
  }

  // ---------------------------------------------------------------------------
  // Splitting lines, as java.util.Scanner.nextLine does
  // ---------------------------------------------------------------------------

  /** The characters that end a line for Scanner.nextLine: newline, carriage
      return, next line, line separator and paragraph separator. A carriage
      return directly followed by a newline ends one line, not two. */
  predicate IsLineBreak(c: char) {
    c == '\n' || c == '\r' || c == '\U{85}' || c == '\U{2028}' || c == '\U{2029}'
  }

  predicate NoLineBreak(s: string) {
    forall i | 0 <= i < |s| :: !IsLineBreak(s[i])
  }

  /** Length of the longest prefix without a line break. */
  function LineLength(s: string): (n: nat)
    ensures n <= |s|
    ensures forall i | 0 <= i < n :: !IsLineBreak(s[i])
    ensures n == |s| || IsLineBreak(s[n])
  {
    if s == [] || IsLineBreak(s[0]) then 0 else 1 + LineLength(s[1..])
  }

  /** The lines of a text, in order: what successive nextLine calls return,
      with the text after the last break as the final line. That line is
      empty when the text ends on a break; nextLine never returns it, and a
      loop guarded by hasNext never asks for it. */
  function SplitLines(s: string): (ls: seq<string>)
    ensures |ls| >= 1
    ensures forall i | 0 <= i < |ls| :: NoLineBreak(ls[i])
    decreases |s|
  {
    var n := LineLength(s);
    if n == |s| then [s]
    else
      var width := if s[n] == '\r' && n + 1 < |s| && s[n + 1] == '\n' then 2 else 1;
      [s[..n]] + SplitLines(s[n + width..])
  }

  /** The strings Scanner.nextLine takes as the end of a line. */
  predicate IsTerminator(t: string) {
    t == "\r\n" || (|t| == 1 && IsLineBreak(t[0]))
  }

  /** One Scanner.nextLine call on the unread text `s`: the line it
      returns, the terminator it skips ("" when the text ends first) and
      the text it leaves unread. */
  function NextLine(s: string): (r: (string, string, string))
    ensures s == r.0 + r.1 + r.2
    ensures NoLineBreak(r.0)
    ensures r.1 == "" ==> r.2 == ""
    ensures r.1 != "" ==> IsTerminator(r.1)
    ensures r.1 == "\r" ==> r.2 == "" || r.2[0] != '\n'
  {
    var n := LineLength(s);
    if n == |s| then (s, "", "")
    else
      var width := if s[n] == '\r' && n + 1 < |s| && s[n + 1] == '\n' then 2 else 1;
      SplitThree(s, n, n + width);
      (s[..n], s[n..n + width], s[n + width..])
  }

  lemma SplitThree(s: string, i: int, j: int)
    requires 0 <= i <= j <= |s|
    ensures s == s[..i] + s[i..j] + s[j..]
  {
    assert s[..j] == s[..i] + s[i..j];
    assert s == s[..j] + s[j..];
  }

  /** The lines of a text are the line nextLine returns, then the lines of
      what it leaves unread, if it skipped a terminator. */
  lemma NextLineSplits(s: string)
    ensures NextLine(s).1 == "" ==> SplitLines(s) == [NextLine(s).0]
    ensures NextLine(s).1 != "" ==> SplitLines(s) == [NextLine(s).0] + SplitLines(NextLine(s).2)
  {
  }

  /** A line without breaks, then a break other than a carriage return:
      nextLine returns the line and skips that one break. */
  lemma NextLineCons(l: string, c: char, rest: string)
    requires NoLineBreak(l) && IsLineBreak(c) && c != '\r'
    ensures NextLine(l + [c] + rest) == (l, [c], rest)
  {
    var s := l + [c] + rest;
    assert forall i | 0 <= i < |l| :: s[i] == l[i];
    assert s[|l|] == c;
    assert LineLength(s) == |l|;
    assert s[..|l|] == l;
    assert s[|l|..|l| + 1] == [c];
    assert s[|l| + 1..] == rest;
  }

  /** Whether a text holds no U+0085, the one line break that is not Java
      whitespace. */
  predicate NoNextLineChar(s: string) {
    forall i | 0 <= i < |s| :: s[i] != '\U{85}'
  }

  /** Lines without breaks, joined by newlines, hold no U+0085. */
  lemma {:induction false} JoinNoNextLineChar(ls: seq<string>)
    requires forall i | 0 <= i < |ls| :: NoLineBreak(ls[i])
    ensures NoNextLineChar(JoinLines(ls))
    decreases |ls|
  {
    if |ls| == 1 {
      assert NoLineBreak(ls[0]);
    } else if |ls| > 1 {
      var tail := ls[1..];
      assert forall i | 0 <= i < |tail| :: tail[i] == ls[i + 1];
      JoinNoNextLineChar(tail);
      var a, b := ls[0], JoinLines(tail);
      assert NoLineBreak(a);
      assert JoinLines(ls) == a + "\n" + b;
      forall i | 0 <= i < |a + "\n" + b|
        ensures (a + "\n" + b)[i] != '\U{85}'
      {
        if i < |a| {
          assert (a + "\n" + b)[i] == a[i];
        } else if i > |a| {
          assert (a + "\n" + b)[i] == b[i - |a| - 1];
        }
      }
    }
  }

  /** A line without breaks, a newline, and the rest: the line comes first. */
  lemma SplitLinesCons(l: string, rest: string)
    requires NoLineBreak(l)
    ensures SplitLines(l + "\n" + rest) == [l] + SplitLines(rest)
  {
    var s := l + "\n" + rest;
    assert forall i | 0 <= i < |l| :: s[i] == l[i];
    assert s[|l|] == '\n';
    assert LineLength(s) == |l|;
    assert s[..|l|] == l;
    assert s[|l| + 1..] == rest;
  }

  /** Splitting joined lines that hold no breaks gives the lines back. */
  lemma {:induction false} SplitJoin(ls: seq<string>)
    requires |ls| >= 1
    requires forall i | 0 <= i < |ls| :: NoLineBreak(ls[i])
    ensures SplitLines(JoinLines(ls)) == ls
    decreases |ls|
  {
    if |ls| == 1 {
      assert LineLength(ls[0]) == |ls[0]|;
    } else {
      SplitLinesCons(ls[0], JoinLines(ls[1..]));
      SplitJoin(ls[1..]);
      assert ls == [ls[0]] + ls[1..];
    }
  }

  /** Lines each followed by a newline. */
  function Unlines(ls: seq<string>): string {
    if ls == [] then "" else ls[0] + "\n" + Unlines(ls[1..])
  }

  lemma {:induction false} UnlinesAppend(a: seq<string>, b: seq<string>)
    ensures Unlines(a + b) == Unlines(a) + Unlines(b)
    decreases |a|
  {
    if a != [] {
      assert (a + b)[0] == a[0];
      assert (a + b)[1..] == a[1..] + b;
      UnlinesAppend(a[1..], b);
    } else {
      assert a + b == b;
    }
  }

  /** When no line holds a newline, the text has exactly one newline per line. */
  lemma {:induction false} CountNewlinesOfUnlines(ls: seq<string>)
    requires forall i | 0 <= i < |ls| :: '\n' !in ls[i]
    ensures CountOf('\n', Unlines(ls)) == |ls|
  {
    if ls != [] {
      assert Unlines(ls) == ls[0] + ("\n" + Unlines(ls[1..]));
      CountOfAppend('\n', ls[0], "\n" + Unlines(ls[1..]));
      CountOfAppend('\n', "\n", Unlines(ls[1..]));
      assert CountOf('\n', "\n") == 1 + CountOf('\n', "\n"[1..]);
      CountOfAbsent('\n', ls[0]);
      CountNewlinesOfUnlines(ls[1..]);
    }
  }
}

=== FILE: token_line.dfy ===
/** The token file the parser reads: one token per line, as the lexer's
    printTokens writes it, decoded by the loop of Parser.main into the
    parser's own Token records.

    A line is split into words as StringTokenizer splits it: the line
    number, the column, the name of the token kind, and the words of the
    value, which are glued back together each followed by one space. The
    kind is looked up by name among the parser's TokenType constants. */
module TokenLine {
  import opened Base
  import opened Text
  import Lexer
  import P = ParserTypes
  import PT = ParserTables

  // ---------------------------------------------------------------------------
  // The two enums
  // ---------------------------------------------------------------------------

  /** The parser's constant with the same name as a lexer constant. */
  function Counterpart(k: Lexer.TokenType): P.TokenType {
    match k
    case EndOfInput => P.EndOfInput
    case OpMultiply => P.OpMultiply
    case OpDivide => P.OpDivide
    case OpMod => P.OpMod
    case OpAdd => P.OpAdd
    case OpSubtract => P.OpSubtract
    case OpNegate => P.OpNegate
    case OpNot => P.OpNot
    case OpLess => P.OpLess
    case OpLessEqual => P.OpLessEqual
    case OpGreater => P.OpGreater
    case OpGreaterEqual => P.OpGreaterEqual
    case OpEqual => P.OpEqual
    case OpNotEqual => P.OpNotEqual
    case OpAssign => P.OpAssign
    case OpAnd => P.OpAnd
    case OpOr => P.OpOr
    case KeywordIf => P.KeywordIf
    case KeywordElse => P.KeywordElse
    case KeywordWhile => P.KeywordWhile
    case KeywordPrint => P.KeywordPrint
    case KeywordPutc => P.KeywordPutc
    case LeftParen => P.LeftParen
    case RightParen => P.RightParen
    case LeftBrace => P.LeftBrace
    case RightBrace => P.RightBrace
    case Semicolon => P.Semicolon
    case Comma => P.Comma
    case Identifier => P.Identifier
    case Integer => P.Integer
    case String => P.String
  }

  /** The lexer's constant with the same name as a parser constant. */
  function Origin(k: P.TokenType): Lexer.TokenType {
    match k
    case Comma => Lexer.Comma
    case EndOfInput => Lexer.EndOfInput
    case Identifier => Lexer.Identifier
    case Integer => Lexer.Integer
    case KeywordElse => Lexer.KeywordElse
    case KeywordIf => Lexer.KeywordIf
    case KeywordPrint => Lexer.KeywordPrint
    case KeywordPutc => Lexer.KeywordPutc
    case KeywordWhile => Lexer.KeywordWhile
    case LeftBrace => Lexer.LeftBrace
    case LeftParen => Lexer.LeftParen
    case OpAdd => Lexer.OpAdd
    case OpAnd => Lexer.OpAnd
    case OpAssign => Lexer.OpAssign
    case OpDivide => Lexer.OpDivide
    case OpEqual => Lexer.OpEqual
    case OpGreater => Lexer.OpGreater
    case OpGreaterEqual => Lexer.OpGreaterEqual
    case OpLess => Lexer.OpLess
    case OpLessEqual => Lexer.OpLessEqual
    case OpMod => Lexer.OpMod
    case OpMultiply => Lexer.OpMultiply
    case OpNegate => Lexer.OpNegate
    case OpNot => Lexer.OpNot
    case OpNotEqual => Lexer.OpNotEqual
    case OpOr => Lexer.OpOr
    case OpSubtract => Lexer.OpSubtract
    case RightBrace => Lexer.RightBrace
    case RightParen => Lexer.RightParen
    case Semicolon => Lexer.Semicolon
    case String => Lexer.String
  }

  /** The two enums declare the same thirty-one constants, in different
      orders: Counterpart and Origin are inverse to each other. */
  lemma CounterpartBijective(a: Lexer.TokenType, b: P.TokenType)
    ensures Origin(Counterpart(a)) == a
    ensures Counterpart(Origin(b)) == b
  {
    OriginOfCounterpart(a);
    CounterpartOfOrigin(b);
  }

  lemma OriginOfCounterpart(a: Lexer.TokenType)
    ensures Origin(Counterpart(a)) == a
  {
    match a
    case EndOfInput =>
    case OpMultiply =>
    case OpDivide =>
    case OpMod =>
    case OpAdd =>
    case OpSubtract =>
    case OpNegate =>
    case OpNot =>
    case OpLess =>
    case OpLessEqual =>
    case OpGreater =>
    case OpGreaterEqual =>
    case OpEqual =>
    case OpNotEqual =>
    case OpAssign =>
    case OpAnd =>
    case OpOr =>
    case KeywordIf =>
    case KeywordElse =>
    case KeywordWhile =>
    case KeywordPrint =>
    case KeywordPutc =>
    case LeftParen =>
    case RightParen =>
    case LeftBrace =>
    case RightBrace =>
    case Semicolon =>
    case Comma =>
    case Identifier =>
    case Integer =>
    case String =>
  }

  lemma CounterpartOfOrigin(b: P.TokenType)
    ensures Counterpart(Origin(b)) == b
  {
    match b
    case Comma =>
    case EndOfInput =>
    case Identifier =>
    case Integer =>
    case KeywordElse =>
    case KeywordIf =>
    case KeywordPrint =>
    case KeywordPutc =>
    case KeywordWhile =>
    case LeftBrace =>
    case LeftParen =>
    case OpAdd =>
    case OpAnd =>
    case OpAssign =>
    case OpDivide =>
    case OpEqual =>
    case OpGreater =>
    case OpGreaterEqual =>
    case OpLess =>
    case OpLessEqual =>
    case OpMod =>
    case OpMultiply =>
    case OpNegate =>
    case OpNot =>
    case OpNotEqual =>
    case OpOr =>
    case OpSubtract =>
    case RightBrace =>
    case RightParen =>
    case Semicolon =>
    case String =>
  }

  /** Letters and underscores only, as every token name is. */
  predicate IsPlainWord(w: string) {
    |w| > 0 && forall i | 0 <= i < |w| :: ('A' <= w[i] <= 'Z') || ('a' <= w[i] <= 'z') || w[i] == '_'
  }

  lemma PlainWord(w: string)
    requires IsPlainWord(w)
    ensures IsWord(w) && NoLineBreak(w)
  {
  }

  // CounterpartName, a few kinds at a time.

  lemma OperatorSameName(k: Lexer.TokenType)
    requires k == Lexer.EndOfInput || k == Lexer.OpMultiply || k == Lexer.OpDivide
      || k == Lexer.OpMod || k == Lexer.OpAdd || k == Lexer.OpSubtract
    ensures P.Name(Counterpart(k)) == Lexer.Name(k)
    ensures IsPlainWord(Lexer.Name(k))
  {
  }

  lemma UnarySameName(k: Lexer.TokenType)
    requires k == Lexer.OpNegate || k == Lexer.OpNot || k == Lexer.OpAssign
      || k == Lexer.OpAnd || k == Lexer.OpOr
    ensures P.Name(Counterpart(k)) == Lexer.Name(k)
    ensures IsPlainWord(Lexer.Name(k))
  {
  }

  lemma ComparisonSameName(k: Lexer.TokenType)
    requires k == Lexer.OpLess || k == Lexer.OpLessEqual || k == Lexer.OpGreater
      || k == Lexer.OpGreaterEqual || k == Lexer.OpEqual || k == Lexer.OpNotEqual
    ensures P.Name(Counterpart(k)) == Lexer.Name(k)
    ensures IsPlainWord(Lexer.Name(k))
  {
  }

  lemma KeywordSameName(k: Lexer.TokenType)
    requires k == Lexer.KeywordIf || k == Lexer.KeywordElse || k == Lexer.KeywordWhile
      || k == Lexer.KeywordPrint || k == Lexer.KeywordPutc
    ensures P.Name(Counterpart(k)) == Lexer.Name(k)
    ensures IsPlainWord(Lexer.Name(k))
  {
  }

  lemma BracketSameName(k: Lexer.TokenType)
    requires k == Lexer.LeftParen || k == Lexer.RightParen || k == Lexer.LeftBrace
      || k == Lexer.RightBrace || k == Lexer.Semicolon
    ensures P.Name(Counterpart(k)) == Lexer.Name(k)
    ensures IsPlainWord(Lexer.Name(k))
  {
    if k == Lexer.LeftParen || k == Lexer.RightParen {
    } else if k == Lexer.LeftBrace || k == Lexer.RightBrace {
    } else {
    }
  }

  lemma OperandSameName(k: Lexer.TokenType)
    requires k == Lexer.Comma || k == Lexer.Identifier || k == Lexer.Integer
      || k == Lexer.String
    ensures P.Name(Counterpart(k)) == Lexer.Name(k)
    ensures IsPlainWord(Lexer.Name(k))
  {
  }

  /** Counterpart matches by name, and every name is a single word on one
      line. */
  lemma CounterpartName(k: Lexer.TokenType)
    ensures P.Name(Counterpart(k)) == Lexer.Name(k)
    ensures IsWord(Lexer.Name(k)) && NoLineBreak(Lexer.Name(k))
  {
    if k.EndOfInput? || k.OpMultiply? || k.OpDivide? || k.OpMod? || k.OpAdd? || k.OpSubtract? {
      OperatorSameName(k);
    } else if k.OpNegate? || k.OpNot? || k.OpAssign? || k.OpAnd? || k.OpOr? {
      UnarySameName(k);
    } else if k.OpLess? || k.OpLessEqual? || k.OpGreater? || k.OpGreaterEqual? || k.OpEqual? || k.OpNotEqual? {
      ComparisonSameName(k);
    } else if k.KeywordIf? || k.KeywordElse? || k.KeywordWhile? || k.KeywordPrint? || k.KeywordPutc? {
      KeywordSameName(k);
    } else if k.LeftParen? || k.RightParen? || k.LeftBrace? || k.RightBrace? || k.Semicolon? {
      BracketSameName(k);
    } else {
      OperandSameName(k);
    }
    PlainWord(Lexer.Name(k));
  }

  lemma OriginName(k: P.TokenType)
    ensures Lexer.Name(Origin(k)) == P.Name(k)
  {
    CounterpartBijective(Origin(k), k);
    CounterpartName(Origin(k));
  }

  /** Every name the lexer prints is found by the decoder's lookup, and
      denotes the constant of the same name. */
  lemma LexerNameFound(k: Lexer.TokenType)
    ensures P.KindOfName(Lexer.Name(k)) == Some(Counterpart(k))
  {
    CounterpartName(k);
    PT.KindOfNameOfName(Counterpart(k));
  }

  // ---------------------------------------------------------------------------
  // Decoding
  // ---------------------------------------------------------------------------

  /** One pass of the loop body: two numbers, a kind name and the value's
      words. A missing word ends the run with NoSuchElementException, a
      malformed number with NumberFormatException, an unknown name with the
      "Token not found" exception; all three in the order the words are
      read. */
  function DecodeLine(str: string): (r: Result<P.Token>)
    ensures var ws := Words(str);
      r.Ok? <==> |ws| >= 3 && ParseInt(ws[0]).Ok? && ParseInt(ws[1]).Ok? && P.KindOfName(ws[2]).Some?
    ensures var ws := Words(str);
      r.Ok? ==> && ParseInt(ws[0]) == Ok(r.value.line) && ParseInt(ws[1]) == Ok(r.value.pos)
                && P.Name(r.value.kind) == ws[2] && Words(r.value.value) == ws[3..]
    ensures |Words(str)| == 0 ==> r == Err(NoSuchElement)
    ensures var ws := Words(str);
      |ws| >= 3 && ParseInt(ws[0]).Ok? && ParseInt(ws[1]).Ok? && P.KindOfName(ws[2]).None? ==>
        r == Err(TokenNotFound(ws[2]))
  {
    var ws := Words(str);
    if |ws| == 0 then Err(NoSuchElement)
    else
      var line :- ParseInt(ws[0]);
      if |ws| == 1 then Err(NoSuchElement)
      else
        var pos :- ParseInt(ws[1]);
        if |ws| == 2 then Err(NoSuchElement)
        else
          var value := SpaceTerminated(ws[3..]);
          WordsOfSpaceTerminated(ws[3..]);
          match P.KindOfName(ws[2])
          case None => Err(TokenNotFound(ws[2]))
          case Some(k) => Ok(P.Token(k, value, line, pos))
  }

  /** Whether a line holds anything but Java whitespace. */
  predicate Filled(l: string) {
    exists i | 0 <= i < |l| :: !Lexer.IsWhitespace(l[i])
  }

  /** Scanner.hasNext: whether any word is left in the rest of the file. */
  predicate HasNext(lines: seq<string>) {
    exists i | 0 <= i < |lines| :: Filled(lines[i])
  }

  /** The decoding loop over the lines of one file, given already split:
      while a line further down holds a word, the next whole line is
      decoded, so a blank line before the last filled one stops the run at
      its first missing word. FileAsLines shows when this is Scanner's
      loop over the file's text. */
  function DecodeLines(lines: seq<string>): (r: Result<seq<P.Token>>)
    ensures r.Ok? ==> |r.value| <= |lines|
    ensures !HasNext(lines) ==> r == Ok([])
  {
    if !HasNext(lines) then Ok([])
    else
      var t :- DecodeLine(lines[0]);
      var rest :- DecodeLines(lines[1..]);
      Ok([t] + rest)
  }

  /** The decoding loop of Parser.main over the text of one file, read as
      Scanner reads it: while some character left is not Java whitespace
      (hasNext, with Scanner's default delimiter), the next line is taken
      (nextLine) and decoded. */
  function DecodeFile(text: string): (r: Result<seq<P.Token>>)
    ensures !Filled(text) ==> r == Ok([])
    ensures Filled(text) && r.Ok? ==> |r.value| >= 1
    decreases |text|
  {
    if !Filled(text) then Ok([])
    else
      var next := NextLine(text);
      var t :- DecodeLine(next.0);
      var rest :- DecodeFile(next.2);
      Ok([t] + rest)
  }

  /** A text holds a word exactly when one of its two parts does. */
  lemma FilledConcat(a: string, b: string)
    ensures Filled(a + b) <==> Filled(a) || Filled(b)
  {
    if Filled(a + b) {
      var i :| 0 <= i < |a + b| && !Lexer.IsWhitespace((a + b)[i]);
      if i < |a| {
        assert a[i] == (a + b)[i];
      } else {
        assert b[i - |a|] == (a + b)[i];
      }
    }
    if Filled(a) {
      var i :| 0 <= i < |a| && !Lexer.IsWhitespace(a[i]);
      assert (a + b)[i] == a[i];
    }
    if Filled(b) {
      var i :| 0 <= i < |b| && !Lexer.IsWhitespace(b[i]);
      assert (a + b)[|a| + i] == b[i];
    }
  }

  /** Cut at its first line break other than U+0085, a text holds a word
      exactly when the line before the break or the text after it does. */
  lemma FilledParts(s: string)
    requires NoNextLineChar(s)
    ensures Filled(s) <==> Filled(NextLine(s).0) || Filled(NextLine(s).2)
    ensures NoNextLineChar(NextLine(s).2)
  {
    var r := NextLine(s);
    FilledConcat(r.0 + r.1, r.2);
    FilledConcat(r.0, r.1);
    forall i | 0 <= i < |r.2|
      ensures r.2[i] != '\U{85}'
    {
      assert r.2[i] == s[|r.0| + |r.1| + i];
    }
    forall i | 0 <= i < |r.1|
      ensures Lexer.IsWhitespace(r.1[i])
    {
      assert r.1[i] == s[|r.0| + i];
    }
  }

  lemma HasNextCons(l: string, ls: seq<string>)
    ensures HasNext([l] + ls) <==> Filled(l) || HasNext(ls)
  {
    var all := [l] + ls;
    assert all[0] == l;
    if HasNext(all) {
      var i :| 0 <= i < |all| && Filled(all[i]);
      if i > 0 {
        assert all[i] == ls[i - 1];
      }
    }
    if HasNext(ls) {
      var i :| 0 <= i < |ls| && Filled(ls[i]);
      assert all[i + 1] == ls[i];
    }
  }

  /** Without U+0085, a text holds a word exactly when one of its lines
      does. */
  lemma {:induction false} FilledLines(s: string)
    requires NoNextLineChar(s)
    ensures Filled(s) <==> HasNext(SplitLines(s))
    decreases |s|
  {
    var r := NextLine(s);
    NextLineSplits(s);
    FilledParts(s);
    if r.1 == "" {
      HasNextCons(r.0, []);
      assert [r.0] + [] == [r.0];
    } else {
      FilledLines(r.2);
      HasNextCons(r.0, SplitLines(r.2));
    }
  }

  /** On a text without U+0085, Scanner's loop and the loop over the
      text's lines decode the same tokens: every line break is then Java
      whitespace, so hasNext sees a word exactly when some line left holds
      one. */
  lemma {:induction false} FileAsLines(text: string)
    requires NoNextLineChar(text)
    ensures DecodeFile(text) == DecodeLines(SplitLines(text))
    decreases |text|
  {
    var r := NextLine(text);
    var ls := SplitLines(text);
    FilledLines(text);
    NextLineSplits(text);
    if Filled(text) {
      assert ls[0] == r.0;
      if r.1 == "" {
        assert ls[1..] == [];
      } else {
        FilledParts(text);
        FileAsLines(r.2);
        assert ls[1..] == SplitLines(r.2);
      }
    }
  }

  /** U+0085 ends a line for nextLine but is not Java whitespace, so
      hasNext counts it as a word: a blank line in front of it is read, and
      fails. The split lines alone no longer show the U+0085, which is why
      FileAsLines leaves such texts out. */
  lemma NextLineCharIsRead(blank: string, rest: string)
    requires IsBlank(blank) && NoLineBreak(blank)
    ensures DecodeFile(blank + "\U{85}" + rest) == Err(NoSuchElement)
    ensures DecodeLines(SplitLines(blank + "\U{85}")) == Ok([])
  {
    WordsAfterBlank(blank, "");
    assert blank + "" == blank;
    FileStopsAtNextLineChar(blank, rest);
    LinesEndAtNextLineChar(blank);
  }

  lemma FileStopsAtNextLineChar(blank: string, rest: string)
    requires NoLineBreak(blank) && Words(blank) == []
    ensures DecodeFile(blank + "\U{85}" + rest) == Err(NoSuchElement)
  {
    var text := blank + "\U{85}" + rest;
    NextLineCons(blank, '\U{85}', rest);
    assert text[|blank|] == '\U{85}';
    assert Filled(text);
    BlankLineStops(text);
  }

  lemma LinesEndAtNextLineChar(blank: string)
    requires IsBlank(blank) && NoLineBreak(blank)
    ensures DecodeLines(SplitLines(blank + "\U{85}")) == Ok([])
  {
    NextLineCons(blank, '\U{85}', "");
    assert blank + "\U{85}" + "" == blank + "\U{85}";
    NextLineSplits(blank + "\U{85}");
    assert SplitLines("") == [""];
    HasNextCons(blank, [""]);
    HasNextCons("", []);
    assert [""] + [] == [""];
  }

  // ---------------------------------------------------------------------------
  // Reading back what the lexer wrote
  // ---------------------------------------------------------------------------

  /** What the decoder makes of a lexer token: the same kind by name, the
      same position, and the words of the printed value each followed by a
      space. */
  function Decoded(t: Lexer.Token): P.Token {
    P.Token(Counterpart(t.kind), SpaceTerminated(Words(Lexer.ValueSuffix(t))), t.line, t.pos)
  }

  function DecodedAll(ts: seq<Lexer.Token>): (r: seq<P.Token>)
    ensures |r| == |ts|
  {
    if ts == [] then [] else [Decoded(ts[0])] + DecodedAll(ts[1..])
  }

  /** Whether a token's line and column fit a Java int, as the lexer's
      int fields always do. */
  predicate InIntRange(t: Lexer.Token) {
    IntMin <= t.line <= IntMax && IntMin <= t.pos <= IntMax
  }

  lemma IntIsWord(n: int)
    ensures IsWord(IntToString(n))
    ensures !Lexer.IsWhitespace(IntToString(n)[0])
  {
    var s := IntToString(n);
    var d := if n < 0 then NatToString(-n) else NatToString(n);
    assert forall i | 0 <= i < |d| :: IsAsciiDigit(d[i]);
    assert n < 0 ==> s == "-" + d;
    assert forall i | 0 <= i < |s| :: s[i] == '-' || IsAsciiDigit(s[i]);
  }

  lemma SpacesBlank(n: nat)
    ensures IsBlank(Spaces(n))
  {
  }

  /** A word, some delimiters, and whatever follows. */
  lemma WordThenBlank(w: string, b: string, rest: string)
    requires IsWord(w) && IsBlank(b) && |b| > 0
    ensures Words(w + (b + rest)) == [w] + Words(rest)
  {
    assert (b + rest)[0] == b[0];
    WordsOfWord(w, b + rest);
    WordsAfterBlank(b, rest);
  }

  /** The value part of a printed token is empty or starts with a space. */
  lemma SuffixStartsBlank(t: Lexer.Token)
    ensures Lexer.ValueSuffix(t) == [] || Lexer.ValueSuffix(t)[0] == ' '
  {
  }

  lemma Assoc(a: string, b: string, c: string)
    ensures (a + b) + c == a + (b + c)
  {
  }
  /** Seven pieces of text, regrouped to the right. */
  lemma Regroup(sa: string, l: string, sb: string, p: string, n: string, sc: string, x: string)
    ensures (sa + l) + "  " + (sb + p) + " " + (n + sc) + x
      == sa + (l + (("  " + sb) + (p + (" " + (n + (sc + x))))))
  {
    var A := sa + l;
    Assoc(n, sc, x);
    Assoc(" ", n, sc + x);
    var R := " " + (n + (sc + x));
    Assoc(p, " ", n + (sc + x));
    Assoc(sb, p, R);
    Assoc("  ", sb, p + R);
    Assoc(l, "  " + sb, p + R);
    Assoc(sa, l, ("  " + sb) + (p + R));
    calc {
      (sa + l) + "  " + (sb + p) + " " + (n + sc) + x;
      { Assoc(A + "  " + (sb + p) + " ", n + sc, x); }
      A + "  " + (sb + p) + " " + ((n + sc) + x);
      { Assoc(A + "  " + (sb + p), " ", n + (sc + x)); }
      A + "  " + (sb + p) + R;
      { Assoc(A + "  ", sb + p, R); Assoc(sb, p, R); }
      A + "  " + (sb + (p + R));
      { Assoc(A, "  ", sb + (p + R)); Assoc("  ", sb, p + R); }
      A + (("  " + sb) + (p + R));
    }
  }

  /** A printed token line, regrouped around its fields. */
  lemma TokenTextShape(t: Lexer.Token, sa: string, l: string, sb: string, p: string, n: string, sc: string)
    requires PadLeft(l, 5) == sa + l && PadLeft(p, 5) == sb + p && PadRight(n, 15) == n + sc
    requires l == IntToString(t.line) && p == IntToString(t.pos) && n == Lexer.Name(t.kind)
    ensures Lexer.TokenText(t)
      == sa + (l + (("  " + sb) + (p + (" " + (n + (sc + Lexer.ValueSuffix(t)))))))
  {
    var suffix := Lexer.ValueSuffix(t);
    assert Lexer.TokenText(t) == (sa + l) + "  " + (sb + p) + " " + (n + sc) + suffix;
    Regroup(sa, l, sb, p, n, sc, suffix);
  }

  /** The words of a line laid out as the lexer lays out a token: padding,
      a word, padding, a word, a space, a word, padding, and a value part
      that is empty or starts with a space. */
  lemma WordsOfFields(sa: string, l: string, sb: string, p: string, n: string, sc: string, suffix: string)
    requires IsBlank(sa) && IsBlank(sb) && IsBlank(sc)
    requires IsWord(l) && IsWord(p) && IsWord(n)
    requires suffix == [] || suffix[0] == ' '
    ensures Words(sa + (l + (("  " + sb) + (p + (" " + (n + (sc + suffix)))))))
      == [l, p, n] + Words(suffix)
  {
    var tail := sc + suffix;
    assert tail == [] || IsDelimiter(tail[0]);
    var afterP := " " + (n + tail);
    var afterL := ("  " + sb) + (p + afterP);
    calc {
      Words(sa + (l + afterL));
      { WordsAfterBlank(sa, l + afterL); }
      Words(l + afterL);
      { WordThenBlank(l, "  " + sb, p + afterP); }
      [l] + Words(p + afterP);
      { WordThenBlank(p, " ", n + tail); }
      [l] + ([p] + Words(n + tail));
      { WordsOfWord(n, tail); WordsAfterBlank(sc, suffix); }
      [l] + ([p] + ([n] + Words(suffix)));
    }
  }

  /** A printed token line, cut into its padding and its fields. */
  lemma TokenTextLayout(t: Lexer.Token) returns (sa: string, sb: string, sc: string)
    ensures IsBlank(sa) && IsBlank(sb) && IsBlank(sc)
    ensures Lexer.TokenText(t) == sa + (IntToString(t.line) + (("  " + sb) + (IntToString(t.pos)
      + (" " + (Lexer.Name(t.kind) + (sc + Lexer.ValueSuffix(t)))))))
  {
    var l, p, n := IntToString(t.line), IntToString(t.pos), Lexer.Name(t.kind);
    sa := Spaces(|PadLeft(l, 5)| - |l|);
    sb := Spaces(|PadLeft(p, 5)| - |p|);
    sc := Spaces(|PadRight(n, 15)| - |n|);
    TokenTextShape(t, sa, l, sb, p, n, sc);
    SpacesBlank(|sa|);
    SpacesBlank(|sb|);
    SpacesBlank(|sc|);
  }

  /** The words of a printed token line: line, column, kind name, and the
      words of the value part. */
  lemma WordsOfTokenText(t: Lexer.Token)
    ensures Words(Lexer.TokenText(t))
      == [IntToString(t.line), IntToString(t.pos), Lexer.Name(t.kind)] + Words(Lexer.ValueSuffix(t))
  {
    var sa, sb, sc := TokenTextLayout(t);
    IntIsWord(t.line);
    IntIsWord(t.pos);
    CounterpartName(t.kind);
    SuffixStartsBlank(t);
    WordsOfFields(sa, IntToString(t.line), sb, IntToString(t.pos), Lexer.Name(t.kind), sc, Lexer.ValueSuffix(t));
  }

  /** A printed token line starts, after its padding, with a digit or a
      minus sign, so Scanner.hasNext sees a word on it. */
  lemma TokenTextFilled(t: Lexer.Token)
    ensures Filled(Lexer.TokenText(t))
  {
    var sa, sb, sc := TokenTextLayout(t);
    IntIsWord(t.line);
    CharAfter(sa, IntToString(t.line), ("  " + sb) + (IntToString(t.pos)
      + (" " + (Lexer.Name(t.kind) + (sc + Lexer.ValueSuffix(t))))));
  }

  lemma CharAfter(a: string, w: string, rest: string)
    requires |w| > 0
    ensures (a + (w + rest))[|a|] == w[0]
  {
  }

  /** A line whose words are two numbers in range, a kind's name and some
      more words decodes to that token. */
  lemma DecodeOfWords(str: string, line: int, pos: int, k: P.TokenType, rest: seq<string>)
    requires IntMin <= line <= IntMax && IntMin <= pos <= IntMax
    requires Words(str) == [IntToString(line), IntToString(pos), P.Name(k)] + rest
    ensures DecodeLine(str) == Ok(P.Token(k, SpaceTerminated(rest), line, pos))
  {
    var ws := Words(str);
    assert ws[0] == IntToString(line) && ws[1] == IntToString(pos) && ws[2] == P.Name(k);
    assert ws[3..] == rest;
    ParseIntToString(line);
    ParseIntToString(pos);
    PT.KindOfNameOfName(k);
  }

  /** Decoding a line printTokens wrote gives back the token: the kind of
      the same name, the same line and column, and the printed value's
      words each followed by a space. */
  lemma DecodeTokenText(t: Lexer.Token)
    requires InIntRange(t)
    ensures DecodeLine(Lexer.TokenText(t)) == Ok(Decoded(t))
  {
    WordsOfTokenText(t);
    CounterpartName(t.kind);
    DecodeOfWords(Lexer.TokenText(t), t.line, t.pos, Counterpart(t.kind), Words(Lexer.ValueSuffix(t)));
  }

  /** A filled line in front of lines that decode is decoded first. */
  lemma DecodeCons(lines: seq<string>, first: string, rest: seq<string>, t: P.Token, ts: seq<P.Token>)
    requires lines == [first] + rest && Filled(first)
    requires DecodeLine(first) == Ok(t) && DecodeLines(rest) == Ok(ts)
    ensures DecodeLines(lines) == Ok([t] + ts)
  {
    assert lines[0] == first && lines[1..] == rest;
    DecodeFilledFirst(lines, t, ts);
  }

  /** A filled first line is decoded first, then the rest. */
  lemma DecodeFilledFirst(lines: seq<string>, t: P.Token, ts: seq<P.Token>)
    requires |lines| > 0 && Filled(lines[0])
    requires DecodeLine(lines[0]) == Ok(t) && DecodeLines(lines[1..]) == Ok(ts)
    ensures DecodeLines(lines) == Ok([t] + ts)
  {
    assert HasNext(lines);
  }

  /** Decoding the lines printTokens wrote gives back every token, in order. */
  lemma {:induction false} DecodeTokenTexts(ts: seq<Lexer.Token>)
    requires forall i | 0 <= i < |ts| :: InIntRange(ts[i])
    ensures DecodeLines(Lexer.TokenTexts(ts)) == Ok(DecodedAll(ts))
  {
    if ts != [] {
      DecodeTokenTexts(ts[1..]);
      DecodeTokenTextsStep(ts);
    }
  }

  lemma DecodeTokenTextsStep(ts: seq<Lexer.Token>)
    requires ts != [] && InIntRange(ts[0])
    requires DecodeLines(Lexer.TokenTexts(ts[1..])) == Ok(DecodedAll(ts[1..]))
    ensures DecodeLines(Lexer.TokenTexts(ts)) == Ok(DecodedAll(ts))
  {
    TokenTextFilled(ts[0]);
    DecodeTokenText(ts[0]);
    DecodeCons(Lexer.TokenTexts(ts), Lexer.TokenText(ts[0]), Lexer.TokenTexts(ts[1..]), Decoded(ts[0]), DecodedAll(ts[1..]));
  }

  /** Once Scanner.hasNext has seen a word anywhere further on, a next
      line without words ends the run at its first `nextToken`. */
  lemma BlankLineStops(text: string)
    requires Filled(text) && Words(NextLine(text).0) == []
    ensures DecodeFile(text) == Err(NoSuchElement)
  {
  }

  /** Lines of whitespace at the end of the file are never read. */
  lemma {:induction false} TrailingBlankLines(lines: seq<string>, blank: seq<string>)
    requires forall i | 0 <= i < |blank| :: !Filled(blank[i])
    ensures DecodeLines(lines + blank) == DecodeLines(lines)
  {
    var all := lines + blank;
    if HasNext(lines) {
      var i :| 0 <= i < |lines| && Filled(lines[i]);
      assert all[i] == lines[i];
      assert all[0] == lines[0];
      assert all[1..] == lines[1..] + blank;
      TrailingBlankLines(lines[1..], blank);
    } else {
      forall i | 0 <= i < |all|
        ensures !Filled(all[i])
      {
        if i < |lines| {
          assert all[i] == lines[i];
        } else {
          assert all[i] == blank[i - |lines|];
        }
      }
    }
  }

  /** Blank lines after the last filled one are never read: appending
      them to a file leaves its decoding as it was. The lines hold no
      break, so no U+0085 follows them (see NextLineCharIsRead). */
  lemma TrailingBlankText(lines: seq<string>, blank: seq<string>)
    requires |lines| >= 1
    requires forall i | 0 <= i < |lines| :: NoLineBreak(lines[i])
    requires forall i | 0 <= i < |blank| :: NoLineBreak(blank[i]) && !Filled(blank[i])
    ensures DecodeFile(JoinLines(lines + blank)) == DecodeFile(JoinLines(lines))
  {
    var all := lines + blank;
    forall i | 0 <= i < |all|
      ensures NoLineBreak(all[i])
    {
      if i < |lines| {
        assert all[i] == lines[i];
      } else {
        assert all[i] == blank[i - |lines|];
      }
    }
    SplitJoin(all);
    SplitJoin(lines);
    JoinNoNextLineChar(all);
    JoinNoNextLineChar(lines);
    FileAsLines(JoinLines(all));
    FileAsLines(JoinLines(lines));
    TrailingBlankLines(lines, blank);
  }

  // ---------------------------------------------------------------------------
  // From the printed file to its lines
  // ---------------------------------------------------------------------------

  lemma NoBreakConcat(a: string, b: string)
    requires NoLineBreak(a) && NoLineBreak(b)
    ensures NoLineBreak(a + b)
  {
    assert forall i | 0 <= i < |a + b| :: (a + b)[i] == if i < |a| then a[i] else b[i - |a|];
  }

  lemma PadLeftNoBreak(s: string, width: nat)
    requires NoLineBreak(s)
    ensures NoLineBreak(PadLeft(s, width))
  {
    NoBreakConcat(Spaces(|PadLeft(s, width)| - |s|), s);
  }

  lemma PadRightNoBreak(s: string, width: nat)
    requires NoLineBreak(s)
    ensures NoLineBreak(PadRight(s, width))
  {
    NoBreakConcat(s, Spaces(|PadRight(s, width)| - |s|));
  }

  lemma IntNoBreak(n: int)
    ensures NoLineBreak(IntToString(n))
  {
    var s := IntToString(n);
    var d := if n < 0 then NatToString(-n) else NatToString(n);
    assert forall i | 0 <= i < |d| :: IsAsciiDigit(d[i]);
    assert n < 0 ==> s == "-" + d;
    assert forall i | 0 <= i < |s| :: s[i] == '-' || IsAsciiDigit(s[i]);
  }

  /** The value part of a printed token: for the three kinds that carry a
      value, the value with spaces or quotes around it. */
  lemma SuffixNoBreak(t: Lexer.Token)
    requires NoLineBreak(t.value)
    ensures NoLineBreak(Lexer.ValueSuffix(t))
  {
    if t.kind == Lexer.Integer {
      IntegerSuffixNoBreak(t);
    } else if t.kind == Lexer.Identifier {
      NoBreakConcat(" ", t.value);
    } else if t.kind == Lexer.String {
      Around(" \"", t.value, "\"");
    }
  }

  lemma IntegerSuffixNoBreak(t: Lexer.Token)
    requires NoLineBreak(t.value) && t.kind == Lexer.Integer
    ensures NoLineBreak(Lexer.ValueSuffix(t))
  {
    PadLeftNoBreak(t.value, 4);
    IndentNoBreak(PadLeft(t.value, 4));
    IntegerSuffix(t);
  }

  lemma IntegerSuffix(t: Lexer.Token)
    requires t.kind == Lexer.Integer
    ensures Lexer.ValueSuffix(t) == "  " + PadLeft(t.value, 4)
  {
  }

  lemma IndentNoBreak(s: string)
    requires NoLineBreak(s)
    ensures NoLineBreak("  " + s)
  {
    NoBreakConcat("  ", s);
  }

  /** Text between two fixed pieces without line breaks. */
  lemma Around(pre: string, v: string, post: string)
    requires NoLineBreak(pre) && NoLineBreak(v) && NoLineBreak(post)
    ensures NoLineBreak(pre + v + post)
  {
    NoBreakConcat(pre, v);
    NoBreakConcat(pre + v, post);
  }

  /** The fixed-width head of a printed line: the padded line, column and
      name, with the spaces between them. */
  function Head(line: string, column: string, name: string): string {
    line + "  " + column + " " + name
  }

  function PaddedLine(t: Lexer.Token): string { PadLeft(IntToString(t.line), 5) }
  function PaddedColumn(t: Lexer.Token): string { PadLeft(IntToString(t.pos), 5) }
  function PaddedName(t: Lexer.Token): string { PadRight(Lexer.Name(t.kind), 15) }

  lemma HeadNoBreak(line: string, column: string, name: string)
    requires NoLineBreak(line) && NoLineBreak(column) && NoLineBreak(name)
    ensures NoLineBreak(Head(line, column, name))
  {
    NoBreakConcat(line, "  ");
    NoBreakConcat(line + "  ", column);
    NoBreakConcat(line + "  " + column, " ");
    NoBreakConcat(line + "  " + column + " ", name);
  }

  lemma PaddedNoBreak(t: Lexer.Token)
    ensures NoLineBreak(PaddedLine(t)) && NoLineBreak(PaddedColumn(t)) && NoLineBreak(PaddedName(t))
  {
    IntNoBreak(t.line);
    IntNoBreak(t.pos);
    CounterpartName(t.kind);
    PadLeftNoBreak(IntToString(t.line), 5);
    PadLeftNoBreak(IntToString(t.pos), 5);
    PadRightNoBreak(Lexer.Name(t.kind), 15);
  }

  /** A token's printed text is its head followed by its value part. */
  lemma TextIsHeadSuffix(t: Lexer.Token)
    ensures Lexer.TokenText(t) == Head(PaddedLine(t), PaddedColumn(t), PaddedName(t)) + Lexer.ValueSuffix(t)
  {
  }

  /** A token is printed on one line exactly when its value part is: the
      head of the line never holds a break. */
  lemma TokenTextOneLine(t: Lexer.Token)
    ensures NoLineBreak(Lexer.TokenText(t)) <==> NoLineBreak(Lexer.ValueSuffix(t))
  {
    var head := Head(PaddedLine(t), PaddedColumn(t), PaddedName(t));
    var suffix := Lexer.ValueSuffix(t);
    TextIsHeadSuffix(t);
    if NoLineBreak(suffix) {
      PaddedNoBreak(t);
      HeadNoBreak(PaddedLine(t), PaddedColumn(t), PaddedName(t));
      NoBreakConcat(head, suffix);
    } else {
      var j :| 0 <= j < |suffix| && IsLineBreak(suffix[j]);
      assert Lexer.TokenText(t)[|head| + j] == suffix[j];
    }
  }

  /** The value part of a printed token breaks its line exactly when the
      token is an Integer, an Identifier or a String whose value holds a
      line break. The character an operator keeps from `follow` is never
      printed. */
  lemma SuffixBreak(t: Lexer.Token)
    ensures NoLineBreak(Lexer.ValueSuffix(t))
      <==> !(t.kind == Lexer.Integer || t.kind == Lexer.Identifier || t.kind == Lexer.String) || NoLineBreak(t.value)
  {
    if NoLineBreak(t.value) {
      SuffixNoBreak(t);
    } else if t.kind == Lexer.Integer || t.kind == Lexer.Identifier || t.kind == Lexer.String {
      var j :| 0 <= j < |t.value| && IsLineBreak(t.value[j]);
      var m := ValueInSuffix(t, j);
    }
  }

  /** Where the `j`-th character of a printed value sits in the value part. */
  lemma ValueInSuffix(t: Lexer.Token, j: int) returns (m: int)
    requires t.kind == Lexer.Integer || t.kind == Lexer.Identifier || t.kind == Lexer.String
    requires 0 <= j < |t.value|
    ensures 0 <= m < |Lexer.ValueSuffix(t)| && Lexer.ValueSuffix(t)[m] == t.value[j]
  {
    var pre: string;
    var post: string;
    if t.kind == Lexer.Integer {
      pre := "  " + Spaces(|PadLeft(t.value, 4)| - |t.value|);
      post := "";
      IntegerSuffixParts(t);
    } else if t.kind == Lexer.Identifier {
      pre, post := " ", "";
      IdentifierSuffixParts(t);
    } else {
      pre, post := " \"", "\"";
      StringSuffixParts(t);
    }
    InMiddle(pre, t.value, post, j);
    m := |pre| + j;
  }

  lemma IntegerSuffixParts(t: Lexer.Token)
    requires t.kind == Lexer.Integer
    ensures Lexer.ValueSuffix(t) == "  " + Spaces(|PadLeft(t.value, 4)| - |t.value|) + t.value + ""
  {
    IntegerSuffix(t);
  }

  lemma IdentifierSuffixParts(t: Lexer.Token)
    requires t.kind == Lexer.Identifier
    ensures Lexer.ValueSuffix(t) == " " + t.value + ""
  {
  }

  lemma StringSuffixParts(t: Lexer.Token)
    requires t.kind == Lexer.String
    ensures Lexer.ValueSuffix(t) == " \"" + t.value + "\""
  {
  }

  /** The `j`-th character of the middle part sits `|pre|` further on. */
  lemma InMiddle(pre: string, v: string, post: string, j: int)
    requires 0 <= j < |v|
    ensures |pre| + j < |pre + v + post| && (pre + v + post)[|pre| + j] == v[j]
  {
  }

  /** Whether every token's value part, and so its whole printed text,
      lies on one line. */
  predicate OneLineValues(ts: seq<Lexer.Token>) {
    forall i | 0 <= i < |ts| :: NoLineBreak(Lexer.ValueSuffix(ts[i]))
  }

  /** Cut into lines as Scanner.nextLine cuts it, the text printTokens
      writes is one line per token exactly when every token prints on one
      line. */
  lemma {:induction false} PrintedLines(ts: seq<Lexer.Token>)
    requires |ts| >= 1
    ensures SplitLines(JoinLines(Lexer.TokenTexts(ts))) == Lexer.TokenTexts(ts) <==> OneLineValues(ts)
  {
    if OneLineValues(ts) {
      var texts := Lexer.TokenTexts(ts);
      TextsOneLine(ts);
      TextsLength(ts);
      SplitJoin(texts);
    } else {
      var i :| 0 <= i < |ts| && !NoLineBreak(Lexer.ValueSuffix(ts[i]));
      BrokenValueSplits(ts, i);
    }
  }

  lemma {:induction false} TextsLength(ts: seq<Lexer.Token>)
    ensures |Lexer.TokenTexts(ts)| == |ts|
  {
    if ts != [] {
      TextsLength(ts[1..]);
    }
  }

  lemma {:induction false} TextsOneLine(ts: seq<Lexer.Token>)
    requires OneLineValues(ts)
    ensures forall i | 0 <= i < |Lexer.TokenTexts(ts)| :: NoLineBreak(Lexer.TokenTexts(ts)[i])
  {
    if ts != [] {
      TokenTextOneLine(ts[0]);
      TextsOneLine(ts[1..]);
      OneLineCons(Lexer.TokenTexts(ts), Lexer.TokenText(ts[0]), Lexer.TokenTexts(ts[1..]));
    }
  }

  lemma OneLineCons(lines: seq<string>, first: string, rest: seq<string>)
    requires lines == [first] + rest && NoLineBreak(first)
    requires forall i | 0 <= i < |rest| :: NoLineBreak(rest[i])
    ensures forall i | 0 <= i < |lines| :: NoLineBreak(lines[i])
  {
    forall i | 0 <= i < |lines|
      ensures NoLineBreak(lines[i])
    {
      if i > 0 {
        assert lines[i] == rest[i - 1];
      }
    }
  }

  /** A token whose printed value holds a line break is printed over more
      than one line: then the lines Scanner hands the decoder are not the
      tokens' texts, and the round trip below does not apply. SuffixBreak
      says which tokens these are. */
  lemma BrokenValueSplits(ts: seq<Lexer.Token>, i: int)
    requires BreakAt(ts, i)
    ensures SplitLines(JoinLines(Lexer.TokenTexts(ts))) != Lexer.TokenTexts(ts)
  {
    var k := BrokenText(ts, i);
  }

  /** The value part printed for `ts[i]` holds a line break. */
  predicate BreakAt(ts: seq<Lexer.Token>, i: int) {
    0 <= i < |ts| && !NoLineBreak(Lexer.ValueSuffix(ts[i]))
  }

  /** The `i`-th printed text is the text of the `i`-th token. */
  lemma {:induction false} TextAt(ts: seq<Lexer.Token>, i: int)
    requires 0 <= i < |ts|
    ensures i < |Lexer.TokenTexts(ts)| && Lexer.TokenTexts(ts)[i] == Lexer.TokenText(ts[i])
    decreases i
  {
    TextsCons(ts);
    if i > 0 {
      var tail := ts[1..];
      TextAt(tail, i - 1);
      TailIndex(ts, tail, i);
      ConsIndex(Lexer.TokenTexts(ts), Lexer.TokenText(ts[0]), Lexer.TokenTexts(tail), i - 1);
    }
  }

  lemma TextsCons(ts: seq<Lexer.Token>)
    requires |ts| > 0
    ensures Lexer.TokenTexts(ts) == [Lexer.TokenText(ts[0])] + Lexer.TokenTexts(ts[1..])
  {
  }

  lemma TailIndex<T>(s: seq<T>, tail: seq<T>, i: int)
    requires 0 < i < |s| && tail == s[1..]
    ensures i - 1 < |tail| && tail[i - 1] == s[i]
  {
  }

  lemma ConsIndex(s: seq<string>, x: string, rest: seq<string>, k: int)
    requires s == [x] + rest && 0 <= k < |rest|
    ensures k + 1 < |s| && s[k + 1] == rest[k]
  {
  }

  /** Some printed text holds the line break of the `i`-th token's value. */
  lemma BrokenText(ts: seq<Lexer.Token>, i: int) returns (k: int)
    requires BreakAt(ts, i)
    ensures 0 <= k < |Lexer.TokenTexts(ts)| && !NoLineBreak(Lexer.TokenTexts(ts)[k])
  {
    TextAt(ts, i);
    TokenTextOneLine(ts[i]);
    k := i;
  }

  /** printTokens, then the decoding loop of Parser.main over the file's
      text: every token comes back, in order, with its kind, its line and
      column, and the words of its printed value. */
  lemma DecodePrintedTokens(source: string)
    requires Lexer.Lex(source).Ok?
    requires OneLineValues(Lexer.Lex(source).value)
    requires forall i | 0 <= i < |Lexer.Lex(source).value| :: InIntRange(Lexer.Lex(source).value[i])
    ensures Lexer.PrintTokens(source).Ok?
    ensures DecodeFile(Lexer.PrintTokens(source).value) == Ok(DecodedAll(Lexer.Lex(source).value))
  {
    var ts := Lexer.Lex(source).value;
    PrintedText(source);
    PrintedLines(ts);
    DecodeTokenTexts(ts);
    PrintedHasNoNextLineChar(ts);
    FileAsLines(JoinLines(Lexer.TokenTexts(ts)));
  }

  lemma PrintedHasNoNextLineChar(ts: seq<Lexer.Token>)
    requires OneLineValues(ts)
    ensures NoNextLineChar(JoinLines(Lexer.TokenTexts(ts)))
  {
    TextsOneLine(ts);
    JoinNoNextLineChar(Lexer.TokenTexts(ts));
  }

  /** printTokens writes the tokens' texts, one per line, and nothing else. */
  lemma PrintedText(source: string)
    requires Lexer.Lex(source).Ok?
    ensures Lexer.PrintTokens(source) == Ok(JoinLines(Lexer.TokenTexts(Lexer.Lex(source).value)))
  {
    Lexer.PrintFromTokens(Lexer.Init(source), "");
    EmptyPrefix(JoinLines(Lexer.TokenTexts(Lexer.Lex(source).value)));
  }

  lemma EmptyPrefix(s: string)
    ensures "" + s == s
  {
  }
}
